=== FILE: README.md ===
# SHADOW_HOWL core, modelled in Dafny

SHADOW_HOWL is a trading-signal service. It has an Express/MySQL back end and a React front end. This project models the core of it as pure Dafny functions over immutable state:

- **Registration and password reset.** These are gated by one-time passwords (OTPs) held in an in-process store (`otp.dfy`, `auth.dfy`).
- **Signal lifecycle.** Admins create, approve, edit and delete signals, and readers list them (`signals.dfy`).
- **Admin controller.** It lists users, sets subscription columns and roles, and broadcasts signals (`admin.dfy`).
- **Access control.**
  - `access.dfy` holds the bearer-token check and the role gate.
  - `routes.dfy` holds the three route tables and the middleware chains they run.
- **Error handling.** This covers the `AppError` taxonomy, its JSON form and the global error classifier (`errors.dfy`).
- **AI coach.** This covers its prompt and the answer-extraction chain (`chat.dfy`).
- **Browser side.** This covers the route guard and route table, and the two OTP forms: sanitising, submit rule, validation chain and reply handling (`frontend.dfy`).

Each handler is a function from the request's fields and the current state to a reply and the new state. A request-body field is `Option<string>`, where `None` is JavaScript's `undefined`. A database table is a sequence of rows with its auto-increment counter. The OTP store is a map keyed by the email field.

Things outside the program become parameters:

- the clock (`now`, in ms);
- the random draw (a fraction `num/den`);
- the email provider's verdict (`Dispatch`);
- bcrypt (`hash`, `compare`);
- JWT verification (`verify`);
- JavaScript's `isNaN` and `parseInt`;
- the language-model call (`generate`);
- `JSON.stringify` (`stringify`).

The code does less than a subscription-gated signal service might be expected to, and the model follows the code:

- Signal listing checks only the caller's role. No subscription expiry is consulted.
- Approving a signal notifies nobody.
- `sendOTP` stores the code before the email is sent, so a failed send leaves the new code live.
- Admin subscription updates write the `users` columns, while login reads the separate `subscriptions` table.

`Authmiddleware.js` is not part of this model. The signal and user routers use it, and so does the admin router. Its verdict enters each route chain as the parameter `auth`.

`Backend/Server.js` defines `authenticateToken(roleRequired)` but neither exports nor mounts it. `Access.AuthenticateToken` states its decision as written.

## Model

| member | source | states |
|---|---|---|
| Otp.Generate | Backend/Utils/OTP.js:14-16 | For any random draw in [0,1), the code is six decimal digits whose value lies in 100000..999999 |
| Otp.Issue | Backend/Utils/OTP.js:25-33 | Issuing replaces any earlier record for the email with attempts 0 and expiry now + 600000 ms. Every other email's record is untouched |
| Otp.Send | Backend/Utils/OTP.js:23-66 | The record is stored whatever the provider does. Success reports a 600-second lifetime, and a failed dispatch is rethrown with the code still stored |
| Otp.Verify | Backend/Utils/OTP.js:74-102 | Accepted iff the record exists, is not past expiry (the expiry instant itself still counts), has fewer than 3 failures, and the submission equals the code. Acceptance deletes the record. Otherwise the result is, in order: not found with the store unchanged; expired, or too many attempts, with the record deleted even for the right code; a TypeError for a missing submission. Other emails are never touched |
| Otp.Clear | Backend/Utils/OTP.js:107-109 | Removes exactly the given email's record |
| Otp.MismatchCostsOneAttempt | Backend/Utils/OTP.js:94-97 | A wrong guess on a live code keeps the record, adds exactly one failure, and reports 3 − attempts remaining |
| Otp.IssuedCodeAcceptedUntilExpiry | Backend/Utils/OTP.js:26-85 | A freshly issued code verifies iff now ≤ issue time + 10 minutes |
| Otp.VerifiedCodeIsConsumed | Backend/Utils/OTP.js:77-101 | After a successful verification, the same submission at any later time finds no OTP |
| Otp.Replay | Backend/Utils/OTP.js:74-102 | A series of submissions yields one verdict per submission |
| Otp.AbsentStaysAbsent | Backend/Utils/OTP.js:77-79 | Once the record is gone, every later submission is "No OTP found" |
| Otp.WrongGuessesLockOut | Backend/Utils/OTP.js:88-97 | If the first (3 − attempts) submissions are all wrong, no submission in the series is ever accepted, including a later correct one |
| Otp.OperationsKeepAttemptsBounded | Backend/Utils/OTP.js:29-109 | Issue, verify and clear keep every attempt counter ≤ 3 |
| Auth.Register | Backend/Controllers/Auth.js:6-20 | Returns 400 iff a field is missing or empty or the username has a space. Returns 409 iff the email or username is already taken. Returns 200 iff the dispatch succeeds, with a body echoing email, username and password. A failed dispatch answers 500 with the provider's error message. The account tables are never written. The store is unchanged on 400 and 409, and a code is issued on 200 or 500 |
| Auth.FirstWithEmail | Backend/Controllers/Auth.js:25-28 | The first row whose email equals the submitted one. An absent email matches nothing, as NULL does in SQL |
| Auth.SubscriptionStatus | Backend/Controllers/Auth.js:40-41 | The status of the user's first `subscriptions` row, or "expired" when there is none |
| Auth.Login | Backend/Controllers/Auth.js:22-48 | Returns 404 iff no row has the email, and 401 iff the password is neither equal to the stored value nor accepted by the hash comparison. Otherwise returns 200 with a token carrying only {id, role} for one day and the profile with the subscription status |
| Auth.VerifyOtp | Backend/Controllers/Auth.js:50-65 | With the intended verifier: 400 iff the code is rejected, 201 iff it passes and a password is present, and 500 "Database error during registration" otherwise. The store afterwards is what the OTP check leaves it: a passed check spends the code even if the insert then fails, and a wrong guess keeps it with one more attempt. 201 inserts the user, then an "expired" subscription row for that id. A failure writes no account row |
| Auth.VerifyOtpAsWritten | Backend/Controllers/Auth.js:50-65 | As written, the imported verifier does not exist, so the handler always answers 500 and changes nothing |
| Auth.ResetPassword | Backend/Controllers/Auth.js:67-81 | With the intended verifier: 400 iff the code is rejected, 200 iff it passes and a new password is present, and 500 "Failed to reset password" otherwise. 200 rewrites the password of exactly the rows with that email and nothing else |
| Auth.SetPassword | Backend/Controllers/Auth.js:74 | Changes the password column of the rows with the email, and leaves every other row and column untouched |
| Auth.ResetPasswordAsWritten | Backend/Controllers/Auth.js:67-81 | As written, always answers 500 and changes nothing |
| Auth.ResendOtp | Backend/Controllers/Auth.js:83-92 | Always issues a fresh code. Returns 200 iff the dispatch succeeds, else 500 "Failed to resend OTP" |
| Auth.ForgotPassword | Backend/Controllers/Auth.js:94-105 | Returns 404 iff no account has the email, and then issues no code. Otherwise issues one. Returns 200 iff the dispatch succeeds, and a failed dispatch answers 500 "Failed to send OTP" |
| Auth.ForgotThenReset | Backend/Controllers/Auth.js:67-105 | For a known account, a delivered forgotten-password code lets the reset succeed at any time up to its expiry |
| Auth.ResendSupersedes | Backend/Controllers/Auth.js:83-92 | After a resend, any other code is refused at any time, and the new code is accepted iff it is submitted by its expiry |
| Auth.VerifyOtpKeepsConsistent | Backend/Controllers/Auth.js:57-58 | Account creation keeps every user id and subscription user id below the auto-increment counter |
| Auth.FirstWithEmailAppend | Backend/Controllers/Auth.js:25-57 | A row appended with a new email is the one login finds |
| Auth.RegisteredAccountLogsIn | Backend/Controllers/Auth.js:6-65 | End to end: a registration that sent a code, then verifying that code in time, creates an account. It logs in with its password, with the default role and an "expired" subscription |
| Auth.ResetThenLogin | Backend/Controllers/Auth.js:22-81 | After a successful reset, login with the new password succeeds |
| Auth.FirstWithEmailSameEmails | Backend/Controllers/Auth.js:25 | Login's lookup depends on the email column only |
| Auth.VerifyOtpImportMismatch | Backend/Controllers/Auth.js:4-53 | A correct, timely code is refused (500) as written and accepted (201) by the intended handler |
| Signals.Validate | Backend/Controllers/Signal.js:9-15 | Passes iff the entry and stop prices are numbers (take-profit is unchecked) and the pair is at most 10 characters. A length of 10 passes. A missing pair throws (500) rather than failing with 400 |
| Signals.Create | Backend/Controllers/Signal.js:4-26 | Returns 201 iff validation passes. It appends exactly one row with the next id, unapproved, with the disclaimer as notes and the given fields, and replies with that id. Otherwise the table is unchanged |
| Signals.MarkApproved | Backend/Controllers/Signal.js:37 | Sets the approval flag of the named rows only |
| Signals.Approve | Backend/Controllers/Signal.js:29-56 | Returns 400 iff the id is missing or empty, 404 iff no row has it, and 200 otherwise. Approval only ever sets the flag to true and changes no other column or row |
| Signals.Insert | Backend/Controllers/Signal.js:63-64 | Inserting into a newest-first list keeps it newest first and adds exactly that row |
| Signals.SortNewestFirst | Backend/Controllers/Signal.js:63-64 | The result is ordered by creation time, descending, and is a permutation of the input |
| Signals.ApprovedRows | Backend/Controllers/Signal.js:64 | Exactly the approved rows, each as often as it occurs in the table, and no other row |
| Signals.ListFor | Backend/Controllers/Signal.js:58-71 | An admin sees a permutation of every row; anyone else sees exactly the approved rows. Both are newest first, and the subscription is never consulted |
| Signals.UpdateAsWritten | Backend/Controllers/Signal.js:74-108 | As written, every call throws a use-before-declaration error and answers 500 with the table unchanged |
| Signals.EditRows | Backend/Controllers/Signal.js:89-97 | Overwrites the editable columns of the named rows only |
| Signals.Update | Backend/Controllers/Signal.js:74-108 | Corrected order: create's validation, then 404 iff no row has the id, else 200. It never changes any row's id, approval flag, creation time or author, and leaves unnamed rows as they were |
| Signals.WithoutNamed | Backend/Controllers/Signal.js:114 | Keeps exactly the rows that do not have the id, each as often as it occurs, and drops every row that has it |
| Signals.Delete | Backend/Controllers/Signal.js:111-119 | Removes exactly the rows with that id, keeps every other row with its multiplicity, and always answers success |
| Signals.CreatedSignalHiddenUntilApproved | Backend/Controllers/Signal.js:18-64 | A new signal is listed for an admin but hidden from everyone else until approved. After approval everyone sees it |
| Signals.ApproveIdempotent | Backend/Controllers/Signal.js:37-49 | Approving twice is the same as approving once |
| Signals.DeleteIdempotentAndFinal | Backend/Controllers/Signal.js:111-116 | Deleting twice is deleting once, and no later listing for any role shows that id |
| Signals.HandlersKeepIdsFresh | Backend/Controllers/Signal.js:17-114 | Create, approve, update and delete keep the counter above every id |
| Signals.DeleteKeepsIdsFresh | Backend/Controllers/Signal.js:111-119 | A delete leaves every remaining id below the auto-increment counter |
| Signals.UpdateUseBeforeDeclaration | Backend/Controllers/Signal.js:77-86 | A well-formed edit of an existing signal is refused (500) as written and applied by the corrected handler |
| Admin.ExpiryAfter | Backend/Controllers/Admin.js:21-22 | The expiry is now plus the parsed number of whole days, or an invalid date when parsing fails |
| Admin.GetAllUsers | Backend/Controllers/Admin.js:4-15 | Every user row, and only those |
| Admin.SetSubscription | Backend/Controllers/Admin.js:24-27 | Only the named user's two subscription columns change |
| Admin.UpdateSubscription | Backend/Controllers/Admin.js:18-32 | The status is stored verbatim and the expiry is now + days. Only the named user's two columns change, and the `subscriptions` table is untouched. The reply is success even when no user has the id |
| Admin.SetRole | Backend/Controllers/Admin.js:38 | Only the named user's role changes |
| Admin.UpdateUserRole | Backend/Controllers/Admin.js:35-43 | The role is stored verbatim, with no check, on the named user only. The message renders the value as given |
| Admin.Broadcast | Backend/Controllers/Admin.js:46-57 | Appends one row authored by the caller's id and answers 201. The request's `type` goes into the `type` column; `direction` and `notes` keep their schema defaults. The row is unapproved and stamped with the server time. A rejected insert answers 500 "Failed to post signal" and changes nothing |
| Admin.SubscriptionUpdateInvisibleToLogin | Backend/Controllers/Admin.js:24-27 | An admin subscription update never changes the status login reports, because login reads the `subscriptions` table (Backend/Controllers/Auth.js lines 40-41) while the update writes the `users` columns |
| Admin.SubscriptionUpdateLastWriteWins | Backend/Controllers/Admin.js:24-27 | Two updates for one user leave exactly the second one's values |
| Admin.RoleChangeReachesToken | Backend/Controllers/Admin.js:38 | After a role change, the user's next successful login carries the new role in the token it signs (Backend/Controllers/Auth.js line 43) |
| Admin.BroadcastHiddenFromUsers | Backend/Controllers/Admin.js:49-51 | A broadcast signal is unapproved, so no non-admin listing (Backend/Controllers/Signal.js line 64) shows it |
| Access.SecondField | Backend/Server.js:23 | `split(' ')[1]`: absent iff the header has no space, and never contains a space |
| Access.SecondFieldSplits | Backend/Server.js:23 | The field is the text between the first and second spaces |
| Access.SecondFieldOfJoin | Backend/Server.js:23 | A header "scheme token …" yields exactly the token |
| Access.BearerToken | Backend/Server.js:22-23 | A token is found iff the header is present and its second field is non-empty |
| Access.AuthenticateToken | Backend/Server.js:21-35 | No token gives 401 "Unauthorized", and a failed verification gives 403 "Invalid Token" before any role check. With a role required and different, the result is 403 "Access Denied". Otherwise it passes with the decoded payload as the user |
| Access.BearerHeaderPasses | Backend/Server.js:22-33 | "Bearer <token>" with a verifiable token passes when no role is required |
| Access.BearerHeaderRoleChecked | Backend/Server.js:22-33 | With a role required, "Bearer <token>" with a verifiable token passes iff the decoded role equals it, and otherwise gets 403 "Access Denied" |
| Access.RequireRole | Backend/Middleware/Rolemiddleware.js:2-10 | Passes iff a user is present and its role equals the required one exactly. Otherwise it denies with 403 "Access Denied: <role> role required."; pass and deny are exclusive |
| Access.RoleComparisonIsExact | Backend/Middleware/Rolemiddleware.js:4-9 | "Admin" is refused where "admin" is required, and a missing user is refused with the exact message |
| Routes.FindRoute | Backend/Routes/SignalRoutes.js:10-22 | The first route whose verb and pattern match, and none when no route matches |
| Routes.FindRouteFirst | Backend/Routes/SignalRoutes.js:10-22 | Any route matching before all others is the one chosen |
| Routes.Run | Backend/Routes/adminRoutes.js:8-15 | A request reaches only a handler of its chain, with no user or the authenticated one. It is stopped only by the authentication's reply or a 403 role denial, and falls through only a chain with no handler |
| Routes.ChainFor | Backend/Routes/adminRoutes.js:8-15 | The router-wide guards, then the chain of the first route serving the verb and path; the guards alone when no route serves it |
| Routes.Dispatch | Backend/Routes/SignalRoutes.js:10-22 | A handler reached through a router belongs to the request's chain and sees no user or the authenticated one. A router without guards lets a request no route serves fall through |
| Routes.NoHandlerNoReach | Backend/Routes/adminRoutes.js:8-9 | A chain of middleware alone never reaches a handler |
| Routes.WellGuardedRun | Backend/Routes/SignalRoutes.js:13-22 | In a chain that authenticates before its role check, an admin-only handler is reached only by a caller authenticated with role "admin" |
| Routes.GuardedDispatch | Backend/Routes/adminRoutes.js:8-15 | Through a well-guarded router, every request that reaches an admin-only handler carries an authenticated admin |
| Routes.RoutersWellGuarded | Backend/Routes/UserRoutes.js:9-15 | In all three routers, authentication precedes the role check on every admin-only route |
| Routes.MutationsRequireAdmin | Backend/Routes/SignalRoutes.js:13-22 | No mutation handler in any router is reachable without an authenticated admin |
| Routes.SignalRouteTable | Backend/Routes/SignalRoutes.js:10-22 | The listing needs authentication only. Create, approve, update and delete run auth, then admin, then their handler |
| Routes.SignalIdRoutes | Backend/Routes/SignalRoutes.js:16-22 | Approve, update and delete by id each run auth, then admin, then their handler |
| Routes.AdminRouteTable | Backend/Routes/adminRoutes.js:8-15 | Every admin route runs auth, then admin, then users/status/role/broadcast to their handlers |
| Routes.AdminUpdateRoutes | Backend/Routes/adminRoutes.js:13-14 | The status and role updates run auth, then admin, then their handler |
| Routes.UserRouteTable | Backend/Routes/UserRoutes.js:9-15 | The user list and subscription update need auth, then admin. The profile needs auth only |
| Errors.NewAppError | Backend/Utils/AppError.js:7-15 | The error code is the given one, or `ERR_<status>` when it is missing or empty |
| Errors.ValidationError | Backend/Utils/AppError.js:37-41 | 400 VALIDATION_ERROR, default message "Validation failed", details defaulting to null |
| Errors.AuthenticationError | Backend/Utils/AppError.js:52-56 | 401 AUTH_ERROR with its default message |
| Errors.AuthorizationError | Backend/Utils/AppError.js:58-62 | 403 FORBIDDEN with its default message |
| Errors.NotFoundError | Backend/Utils/AppError.js:64-68 | 404 NOT_FOUND, message "<resource> not found" with "Resource" by default |
| Errors.ConflictError | Backend/Utils/AppError.js:70-74 | 409 CONFLICT with its default message |
| Errors.DatabaseError | Backend/Utils/AppError.js:76-80 | 500 DATABASE_ERROR, keeping the original error |
| Errors.ExternalServiceError | Backend/Utils/AppError.js:92-101 | 503 SERVICE_UNAVAILABLE. A missing or empty message names the service, "External Service" by default |
| Errors.RateLimitError | Backend/Utils/AppError.js:103-107 | 429 RATE_LIMITED, retry-after 60 by default |
| Errors.ToJson | Backend/Utils/AppError.js:20-113 | `success` is always false, and the error carries code, message, status and timestamp. The stack appears iff in development. Details appear iff truthy. The original error appears iff in development and present. Retry-after appears iff rate-limited |
| Errors.HandleDatabaseError | Backend/Middleware/ErrorHandler.js:39-67 | Duplicate entry gives 409 CONFLICT and a missing reference gives 400 VALIDATION_ERROR. The result is 503 iff the code is one of the three connection failures. Any other code gives 500 DATABASE_ERROR |
| Errors.JwtError | Backend/Middleware/ErrorHandler.js:72-74 | 401 INVALID_TOKEN |
| Errors.JwtExpiredError | Backend/Middleware/ErrorHandler.js:76-78 | 401 TOKEN_EXPIRED |
| Errors.StatusOr500 | Backend/Middleware/ErrorHandler.js:84 | A missing or zero status becomes 500 |
| Errors.ErrorHandler | Backend/Middleware/ErrorHandler.js:83-130 | The reply's status always equals the JSON error's status, with success false. The handler itself throws iff a "ValidationError" arrives without an `errors` object |
| Errors.ErrorHandlerClassifies | Backend/Middleware/ErrorHandler.js:43-107 | Duplicate entry gives 409, a missing reference gives 400, and the two token error names give 401 INVALID_TOKEN and 401 TOKEN_EXPIRED |
| Errors.OtherDatabaseCodesAre500 | Backend/Middleware/ErrorHandler.js:49-98 | Any other `ER_` code gives 500 DATABASE_ERROR |
| Errors.ProtocolCodesAreNotEr | Backend/Middleware/ErrorHandler.js:55-62 | No connection-failure code starts with `ER_` |
| Errors.ClassifyRaw | Backend/Middleware/ErrorHandler.js:95-115 | A raw error is recognised iff it has a validation or token error name or an `ER_` code, and a recognised error is never SERVICE_UNAVAILABLE |
| Errors.ProtocolCodesMapTo503 | Backend/Middleware/ErrorHandler.js:55-62 | The three connection-failure codes map to 503 |
| Errors.ProtocolMappingsUnreachable | Backend/Middleware/ErrorHandler.js:55-98 | No raw error reaching the middleware is answered SERVICE_UNAVAILABLE, so the 503 mappings are dead code |
| Errors.UnknownErrorsAreInternal | Backend/Middleware/ErrorHandler.js:84-126 | An unrecognised error gives INTERNAL_SERVER_ERROR with its own status or 500. The message is generic in production and the error's own otherwise |
| Errors.AppErrorsPassThrough | Backend/Middleware/ErrorHandler.js:93-129 | An application error is answered with its own status and its own JSON |
| Chat.Prompt | Backend/Controllers/Chat.js:16 | The prompt starts with the coach preamble and ends with the mandatory disclaimer instruction |
| Chat.PromptEmbedsQuestion | Backend/Controllers/Chat.js:16 | The question can be read back out of the prompt |
| Chat.Extract | Backend/Controllers/Chat.js:24-39 | Throws iff the reply is null or undefined. A string reply is the answer verbatim. Any other answer is truthy |
| Chat.AskAssistant | Backend/Controllers/Chat.js:6-47 | Returns 200 with the extracted answer iff the service produced a non-null reply. Otherwise returns 500 with "AI Error: " and the service's or the extraction's message |
| Chat.CandidateTextWins | Backend/Controllers/Chat.js:28-29 | Truthy candidate text is the answer, whatever else the reply carries |
| Chat.TextPropertyUsedWithoutCandidates | Backend/Controllers/Chat.js:30-31 | For any reply whose candidates are falsy or carry no truthy text, a truthy `text` is the answer |
| Chat.ContentShapeUsedLast | Backend/Controllers/Chat.js:32-33 | For any reply with no truthy candidate text and a falsy `text`, a truthy text of the first content part is the answer |
| Chat.UnrecognisedReplyIsQuoted | Backend/Controllers/Chat.js:36-38 | Any non-string reply that none of the three shapes yields a truthy text for (an object of unknown shape, an array, a number) is answered with the fallback note, at most 200 characters of the serialised reply after the prefix |
| Frontend.ProtectedRoute | Frontend/src/App.jsx:12-23 | Renders iff there is a token and either no role is required or the stored role equals it. No token goes to /login, and a wrong role goes to /feed |
| Frontend.App | Frontend/src/App.jsx:25-59 | The feed, coach and admin pages show only with a token. Every redirect leads to /login or /feed, and /feed only from /admin with a token. /login, /register and /restricted show their own page whatever is stored |
| Frontend.AppGuards | Frontend/src/App.jsx:30-55 | The admin page shows iff there is a token and role "admin". The feed and coach show iff there is a token. The three public pages always show, and every other path goes to /login |
| Frontend.NonAdminBouncedToFeed | Frontend/src/App.jsx:18-52 | A signed-in non-admin who opens /admin lands on /feed |
| Frontend.DigitsOnly | Frontend/src/pages/VerifyOTP.jsx:105 | The result is all digits and no longer than the input, and an all-digit string is unchanged |
| Frontend.DigitsOnlyFilters | Frontend/src/pages/VerifyOTP.jsx:105 | The filter works character by character: it distributes over concatenation, keeps a single digit and drops a single non-digit, so every digit of the input survives in order |
| Frontend.SanitiseOtp | Frontend/src/pages/ResetPassword.jsx:125-127 | The field only ever holds at most six digits |
| Frontend.TypingAppendsDigits | Frontend/src/pages/VerifyOTP.jsx:103-105 | Typing into a field with fewer than six characters appends the character if it is a digit and otherwise leaves the field unchanged |
| Frontend.SanitiseOtpIdempotent | Frontend/src/pages/VerifyOTP.jsx:103-105 | Sanitising twice equals sanitising once, and a six-digit code passes unchanged |
| Frontend.IssuedCodeSurvivesInput | Frontend/src/pages/VerifyOTP.jsx:103-105 | Every code the server generates (Backend/Utils/OTP.js lines 14-16) can be typed in as is |
| Frontend.VerifyPage | Frontend/src/pages/VerifyOTP.jsx:9-21 | Redirects to /register iff email, username or password is missing or empty |
| Frontend.SubmitVerify | Frontend/src/pages/VerifyOTP.jsx:23-57 | A request goes out iff the code has six characters; otherwise the length message is shown. A failure clears the code and shows the server's message or "Verification failed". Success shows the verified message and redirects to /login |
| Frontend.CanSubmitVerify | Frontend/src/pages/VerifyOTP.jsx:127 | An enabled button sends whatever the server answers. While nothing is loading, the button is enabled exactly when the handler would send |
| Frontend.VerifyButtonAgreesWithHandler | Frontend/src/pages/VerifyOTP.jsx:28-127 | An enabled button always sends. After a failure the button is disabled until a new code is typed |
| Frontend.ResetPage | Frontend/src/pages/ResetPassword.jsx:9-23 | Redirects to /forgot-password iff the email is missing or empty |
| Frontend.ResetCheck | Frontend/src/pages/ResetPassword.jsx:30-57 | Passes iff the code has six characters, the passwords match, and the password has at least 6 characters and one listed special character. A failure yields one of the four messages |
| Frontend.ResetCheckReportsFirstFailure | Frontend/src/pages/ResetPassword.jsx:30-57 | Each message appears exactly when all earlier checks pass and its own fails |
| Frontend.SubmitReset | Frontend/src/pages/ResetPassword.jsx:25-79 | Sends iff the policy holds. A failed check sends nothing and shows only the first failing check's message, with the rest of the form unchanged. A failed reply clears the code and shows the server's message or "Password reset failed". Success shows the done message and redirects to /login. The password fields are kept |
| Frontend.CanSubmitReset | Frontend/src/pages/ResetPassword.jsx:179 | While nothing is loading, every form the policy accepts has the button enabled, and an enabled button never meets the code-length message |
| Frontend.ResetPolicyImpliesSubmittable | Frontend/src/pages/ResetPassword.jsx:30-179 | Every form the policy accepts has an enabled button. The converse fails: an enabled button can still carry mismatched passwords |
| Text.NatToString | Backend/Utils/OTP.js:15 | `toString` of a natural number: digits only, without a leading zero |
| Text.ParseNatToString | Backend/Utils/OTP.js:15 | Reading the digits back gives the number |
| Text.NatToStringInjective | Backend/Controllers/Signal.js:37 | Distinct ids have distinct decimal forms |
| Text.NatToStringLength | Backend/Utils/OTP.js:15 | Numbers in [10^k, 10^(k+1)) have k+1 digits |
| Schema.NamesUnique | Backend/Controllers/Signal.js:37-114 | An id parameter names at most one row id |

## Left out

- Email delivery, the language-model call and the debug logging. Their effects enter as the parameters listed above.
- bcrypt, JWT signing and JWT verification. They are oracles, and the token is returned as its unsigned payload.
- SQL text, the connection pool, unique constraints and insert failures. Each table is a sequence of rows, and a failed insert is not modelled except where the source reports it (the broadcast).
- Schema defaults are assumed:
  - a new user's role is "user";
  - a broadcast row is unapproved;
  - a broadcast row's `direction` and `notes`, and a signal-controller row's `type`, keep their defaults (`None` here);
  - `created_at` is the server time.
- Floating-point prices. Prices are opaque fields judged by an `isNaN` oracle.
- The Express and React matching of paths. It is case-insensitive and trailing-slash tolerant in both; the model matches exactly.
- `Authmiddleware.js`, `Backend/Controllers/User.js`, `ChatRoutes.js` and `AuthRoutes.js` are not part of this model.
- `logError`, `catchAsync`, the process-level rejection and exception handlers, and `ERROR_HANDLING_GUIDE.js`. None of them decides a reply.
- The resend buttons' 60-second countdown and the other pages' rendering.
- Signals.Approve, Signals.Update, Signals.Delete, Admin.SetSubscription, Admin.SetRole: every `WHERE id = ?` goes through `Schema.Names`, and MySQL's lenient comparison of a string id with a numeric column is not modelled. For example, "1abc" matches id 1 in MySQL. Here an id names a row only when it is that id's exact decimal text.
- Auth.Register, Auth.Login, Auth.ForgotPassword, Auth.SetPassword: `WHERE email = ?` and `username = ?` are modelled as exact text equality (`SqlEq`), which assumes a binary or case-sensitive collation. Under MySQL's default case-insensitive collations, "Bob@x.com" would clash with "bob@x.com" at registration and would log in as that account.
- Signals.Validate, Frontend.ResetCheck, Chat.Extract: JavaScript measures `length` and `substring` in UTF-16 code units; the model counts characters. A character outside the Basic Multilingual Plane counts once here and twice there, so a pair of six emoji passes the 10-character limit here and fails it in the source.
- Signals.ListFor: the order among signals with equal timestamps is left open (any newest-first permutation satisfies the contract). The database does not fix it either.
- Admin.ExpiryAfter: `setDate` moves by calendar days. The model adds 24-hour days and ignores daylight-saving shifts.
- Otp.Verify: a submitted code is a string or absent. A numeric JSON value, whose `toString` the source compares, is not modelled.
- Errors.ErrorHandler: an `AppError` built without a status would render `ERR_undefined`; statuses here are always integers. Mongoose messages that are undefined, which `join` renders as empty, are not modelled.
- Chat.Extract: `JSON.stringify` of the reply is the oracle `stringify`. The values it cannot serialise are not modelled.
- Frontend.SanitiseOtp: the input's `maxLength` is modelled as keeping the first six characters of the typed value.

## Findings

| source | as written | input that shows it | evidently intended | confidence | as-written member | corrected member |
|---|---|---|---|---|---|---|
| Backend/Controllers/Auth.js:4,53,70 | Imports `verifyOTPLogic`, but the OTP module exports only `verifyOTP`. Both code-gated handlers call undefined and answer 500. The failure is latent: `Backend/Routes/AuthRoutes.js` mounts only `/register` and `/login`, and `Frontend/src/App.jsx` routes neither OTP page | A code issued to "trader@example.com" and submitted correctly at once | Call the OTP module's `verifyOTP`: 201 for registration, 200 for reset | high, not executed | Auth.VerifyOtpAsWritten, Auth.ResetPasswordAsWritten (Auth.VerifyOtpImportMismatch) | Auth.VerifyOtp, Auth.ResetPassword (Auth.RegisteredAccountLogsIn, Auth.ResetThenLogin) |
| Backend/Controllers/Signal.js:77-86 | `updateSignal` reads `entry_price` and `pair` before the `const` declarations that bind them, so every call throws and answers 500 | Editing signal 1 to pair "ETH/USD" with prices "100", "90" | Destructure the request first, then validate and update: 200 with the row edited | high, not executed | Signals.UpdateAsWritten (Signals.UpdateUseBeforeDeclaration) | Signals.Update (Signals.HandlersKeepIdsFresh) |

=== FILE: access.dfy ===
/** Access control: the token middleware of the server entry point
    (`authenticateToken(roleRequired)`) and the role middleware
    (`roleMiddleware(roleRequired)`). Token verification is the oracle
    `verify`, yielding the decoded claims or nothing on any failure. */
module Access {
  import opened Wrappers
  import opened Js
  import opened Schema
  import opened Http
  import Text

  /** A middleware's decision: call `next` with the request's user, or send
      a reply and stop. */
  datatype Gate = Pass(user: Claims) | Deny(reply: Reply)

  /** `header.split(' ')[1]`: the text between the first and the second
      space, or `undefined` (`None`) when the header has no space. */
  function SecondField(header: string): (r: Option<string>)
    ensures r.None? <==> ' ' !in header
    ensures r.Some? ==> ' ' !in r.value
  {
    var i := Text.IndexOf(header, ' ');
    if i == |header| then
      assert header[..i] == header;
      None
    else
      assert header[i] in header;
      var rest := header[i + 1..];
      var j := Text.IndexOf(rest, ' ');
      Some(rest[..j])
  }

  /** The field `SecondField` returns sits between the first space and the
      next space (or the end). */
  lemma SecondFieldSplits(header: string)
    requires SecondField(header).Some?
    ensures var i := Text.IndexOf(header, ' ');
            var t := SecondField(header).value;
            && i + 1 + |t| <= |header|
            && ' ' !in header[..i]
            && header[i] == ' '
            && header[i + 1..i + 1 + |t|] == t
            && (i + 1 + |t| == |header| || header[i + 1 + |t|] == ' ')
  {
    var i := Text.IndexOf(header, ' ');
    assert i < |header|;
    var rest := header[i + 1..];
    var j := Text.IndexOf(rest, ' ');
    var t := rest[..j];
    assert SecondField(header) == Some(t);
    assert |t| == j && j <= |rest|;
    assert header[i + 1..i + 1 + j] == t;
  }

  /** Conversely, the second space-separated field of `a + " " + t + rest`
      is `t` when neither `a` nor `t` holds a space and `rest` is empty or
      starts at a space. */
  lemma SecondFieldOfJoin(a: string, t: string, rest: string)
    requires ' ' !in a && ' ' !in t
    requires rest == [] || rest[0] == ' '
    ensures SecondField(a + " " + t + rest) == Some(t)
  {
    var h := a + " " + t + rest;
    assert h[..|a|] == a;
    Text.IndexOfFirst(h, ' ', |a|);
    var tail := h[|a| + 1..];
    assert tail == t + rest;
    if rest == [] {
      assert tail == t;
      Text.IndexOfAbsent(tail, ' ');
    } else {
      assert tail[..|t|] == t;
      Text.IndexOfFirst(tail, ' ', |t|);
    }
  }

  /** `authHeader && authHeader.split(' ')[1]`, as a truthy token or nothing. */
  function BearerToken(header: Field): (r: Option<string>)
    ensures r.Some? <==> Truthy(header) && SecondField(header.value).Some? && SecondField(header.value).value != ""
    ensures r.Some? ==> r == SecondField(header.value) && r.value != ""
  {
    if !Truthy(header) then None
    else
      match SecondField(header.value)
      case None => None
      case Some(t) => if t == "" then None else Some(t)
  }

  /** `authenticateToken(roleRequired)`: 401 without a token, 403 "Invalid
      Token" when verification fails (checked before any role), 403 "Access
      Denied" when a required role differs, otherwise `next` with the
      decoded claims as `req.user`. */
  function AuthenticateToken(roleRequired: Field, header: Field, verify: string -> Option<Claims>): (r: Gate)
    ensures BearerToken(header).None? ==> r == Deny(Reply(Unauthorized, Message("Unauthorized")))
    ensures BearerToken(header).Some? && verify(BearerToken(header).value).None? ==>
              r == Deny(Reply(Forbidden, Message("Invalid Token")))
    ensures r.Pass? <==>
              && BearerToken(header).Some?
              && verify(BearerToken(header).value).Some?
              && (!Truthy(roleRequired) || verify(BearerToken(header).value).value.role == roleRequired)
    ensures r.Pass? ==> r.user == verify(BearerToken(header).value).value
    ensures r.Deny? && r.reply.status == Forbidden && r.reply.body != Message("Invalid Token") ==>
              r.reply.body == Message("Access Denied")
    ensures BearerToken(header).Some? && verify(BearerToken(header).value).Some? && Truthy(roleRequired) &&
            verify(BearerToken(header).value).value.role != roleRequired ==>
              r == Deny(Reply(Forbidden, Message("Access Denied")))
  {
    match BearerToken(header)
    case None => Deny(Reply(Unauthorized, Message("Unauthorized")))
    case Some(token) =>
      match verify(token)
      case None => Deny(Reply(Forbidden, Message("Invalid Token")))
      case Some(user) =>
        if Truthy(roleRequired) && user.role != roleRequired then Deny(Reply(Forbidden, Message("Access Denied")))
        else Pass(user)
  }

  /** A well-formed `Bearer <token>` header reaches the verifier with exactly
      that token; with no required role any verified token passes. */
  lemma BearerHeaderPasses(token: string, verify: string -> Option<Claims>)
    requires token != "" && ' ' !in token
    requires verify(token).Some?
    ensures AuthenticateToken(None, Some("Bearer " + token), verify) == Pass(verify(token).value)
  {
    SecondFieldOfJoin("Bearer", token, []);
    assert "Bearer" + " " + token + [] == "Bearer " + token;
  }

  /** With a role required, a well-formed `Bearer <token>` header that
      verifies passes exactly when the decoded role is that role, and is
      otherwise refused with 403 "Access Denied". */
  lemma BearerHeaderRoleChecked(token: string, role: string, verify: string -> Option<Claims>)
    requires token != "" && ' ' !in token && role != ""
    requires verify(token).Some?
    ensures AuthenticateToken(Some(role), Some("Bearer " + token), verify) ==
              if verify(token).value.role == Some(role) then Pass(verify(token).value)
              else Deny(Reply(Forbidden, Message("Access Denied")))
  {
    SecondFieldOfJoin("Bearer", token, []);
    assert "Bearer" + " " + token + [] == "Bearer " + token;
  }

  function DenialMessage(roleRequired: string): string {
    "Access Denied: " + roleRequired + " role required."
  }

  /** `roleMiddleware(roleRequired)`: `next` exactly when a user is present
      and its role is the required one (case-sensitive); otherwise 403 with
      the role named. */
  function RequireRole(roleRequired: string, user: Option<Claims>): (r: Gate)
    ensures r.Pass? <==> user.Some? && user.value.role == Some(roleRequired)
    ensures r.Pass? ==> r.user == user.value
    ensures r.Deny? ==> r.reply == Reply(Forbidden, Message(DenialMessage(roleRequired)))
  {
    if user.Some? && user.value.role == Some(roleRequired) then Pass(user.value)
    else Deny(Reply(Forbidden, Message(DenialMessage(roleRequired))))
  }

  /** Role names are compared exactly: "Admin" is not "admin". */
  lemma RoleComparisonIsExact(id: nat)
    ensures RequireRole("admin", Some(Claims(id, Some("Admin")))).Deny?
    ensures RequireRole("admin", Some(Claims(id, Some("admin")))).Pass?
    ensures RequireRole("admin", None) == Deny(Reply(Forbidden, Message("Access Denied: admin role required.")))
  {
    assert DenialMessage("admin") == "Access Denied: admin role required.";
  }
}

=== FILE: admin.dfy ===
/** The admin controller: list users, set a user's subscription columns, set
    a user's role, and post ("broadcast") a signal. Its subscription writes
    go to the `users` columns, not to the `subscriptions` table that login
    reads. */
module Admin {
  import opened Wrappers
  import opened Js
  import opened Schema
  import opened Http
  import Auth
  import Signals

  const DayMs: int := 24 * 60 * 60 * 1000
  /** The `is_approved` column default a broadcast row receives (the insert
      names no approval flag; the default is assumed false). */
  const ApprovedByDefault := false

  datatype Outcome = Outcome(reply: Reply, db: Db)

  /** `new Date()` advanced by `parseInt(expiryDays)` days; `parseInt`
      yielding NaN (`None`) makes an Invalid Date. */
  function ExpiryAfter(now: int, days: Option<int>): (e: Expiry)
    ensures days.Some? ==> e == At(now + days.value * DayMs)
    ensures days.None? ==> e == InvalidDate
  {
    match days
    case Some(d) => At(now + d * DayMs)
    case None => InvalidDate
  }

  /** `getAllUsers`: every row of `users`, as stored. */
  function GetAllUsers(db: Db): (r: Reply)
    ensures r.status == Ok && r.body.UserList?
    ensures forall u :: u in r.body.users <==> u in db.users
    ensures |r.body.users| == |db.users|
  {
    Reply(Ok, UserList(db.users))
  }

  /** `UPDATE users SET subscription_status = ?, subscription_expiry = ? WHERE id = ?`. */
  function SetSubscription(users: seq<User>, userId: Field, status: Field, expiry: Expiry): (r: seq<User>)
    ensures |r| == |users|
    ensures forall i :: 0 <= i < |users| ==>
              r[i] == if Names(userId, users[i].id)
                      then users[i].(subscriptionStatus := status, subscriptionExpiry := Some(expiry))
                      else users[i]
  {
    if |users| == 0 then []
    else
      [if Names(userId, users[0].id) then users[0].(subscriptionStatus := status, subscriptionExpiry := Some(expiry)) else users[0]]
      + SetSubscription(users[1..], userId, status, expiry)
  }

  /** `updateSubscription`: the status is stored verbatim, the expiry is now
      plus the parsed number of days, only the named user's two columns
      change, and the reply is success even when no user has that id. */
  function UpdateSubscription(db: Db, userId: Field, status: Field, expiryDays: Field, now: int,
                              parseInt: Field -> Option<int>): (r: Outcome)
    ensures r.reply == Reply(Ok, Message("Subscription updated successfully"))
    ensures r.db.subscriptions == db.subscriptions && r.db.nextUserId == db.nextUserId
    ensures |r.db.users| == |db.users|
    ensures forall i :: 0 <= i < |db.users| ==>
              && r.db.users[i].(subscriptionStatus := db.users[i].subscriptionStatus,
                                subscriptionExpiry := db.users[i].subscriptionExpiry) == db.users[i]
              && (Names(userId, db.users[i].id) ==>
                    && r.db.users[i].subscriptionStatus == status
                    && r.db.users[i].subscriptionExpiry == Some(ExpiryAfter(now, parseInt(expiryDays))))
              && (!Names(userId, db.users[i].id) ==> r.db.users[i] == db.users[i])
  {
    var expiry := ExpiryAfter(now, parseInt(expiryDays));
    Outcome(Reply(Ok, Message("Subscription updated successfully")),
            db.(users := SetSubscription(db.users, userId, status, expiry)))
  }

  /** `UPDATE users SET role = ? WHERE id = ?`. */
  function SetRole(users: seq<User>, userId: Field, role: Field): (r: seq<User>)
    ensures |r| == |users|
    ensures forall i :: 0 <= i < |users| ==>
              r[i] == if Names(userId, users[i].id) then users[i].(role := role) else users[i]
  {
    if |users| == 0 then []
    else [if Names(userId, users[0].id) then users[0].(role := role) else users[0]] + SetRole(users[1..], userId, role)
  }

  /** `updateUserRole`: stores the new role verbatim (no check of its value)
      on the named user only. */
  function UpdateUserRole(db: Db, userId: Field, newRole: Field): (r: Outcome)
    ensures r.reply == Reply(Ok, Message("User role updated to " + Render(newRole)))
    ensures r.db.subscriptions == db.subscriptions && r.db.nextUserId == db.nextUserId
    ensures |r.db.users| == |db.users|
    ensures forall i :: 0 <= i < |db.users| ==>
              && r.db.users[i].(role := db.users[i].role) == db.users[i]
              && (Names(userId, db.users[i].id) ==> r.db.users[i].role == newRole)
              && (!Names(userId, db.users[i].id) ==> r.db.users[i] == db.users[i])
  {
    Outcome(Reply(Ok, Message("User role updated to " + Render(newRole))),
            db.(users := SetRole(db.users, userId, newRole)))
  }

  /** The admin `createSignal` (`POST /broadcast`): inserts the row with the
      caller's id as its author. The request's `type` goes into the `type`
      column, not `direction`, which keeps its schema default; whether the
      table accepts the insert is the parameter `schemaAccepts`. */
  function Broadcast(t: SignalTable, pair: Field, kind: Field, entry: Field, sl: Field, tp: Field,
                     caller: Claims, now: int, schemaAccepts: bool): (r: Signals.Outcome)
    ensures !schemaAccepts ==> r == Signals.Outcome(Reply(ServerError, Error("Failed to post signal")), t)
    ensures schemaAccepts ==>
              && r.reply == Reply(CreatedStatus, Message("New signal broadcasted!"))
              && r.table.nextId == t.nextId + 1
              && |r.table.rows| == |t.rows| + 1
              && r.table.rows[..|t.rows|] == t.rows
              && var row := r.table.rows[|t.rows|];
                 && row.id == t.nextId
                 && row.createdBy == Some(caller.id)
                 && (row.pair, row.kind, row.entryPrice, row.stopLoss, row.takeProfit) == (pair, kind, entry, sl, tp)
                 && row.direction == None && row.notes == None
                 && row.isApproved == ApprovedByDefault && row.createdAt == now
  {
    if !schemaAccepts then Signals.Outcome(Reply(ServerError, Error("Failed to post signal")), t)
    else
      var row := Signal(t.nextId, pair, None, kind, entry, sl, tp, None, ApprovedByDefault, now, Some(caller.id));
      Signals.Outcome(Reply(CreatedStatus, Message("New signal broadcasted!")), SignalTable(t.rows + [row], t.nextId + 1))
  }

  /** Two subscription representations: an admin subscription update writes
      the `users` columns, so the status login reports (read from the
      `subscriptions` table) does not change. */
  lemma SubscriptionUpdateInvisibleToLogin(db: Db, userId: Field, status: Field, expiryDays: Field, now: int,
                                           parseInt: Field -> Option<int>, email: Field, password: Field,
                                           compare: (string, string) -> bool)
    ensures var db' := UpdateSubscription(db, userId, status, expiryDays, now, parseInt).db;
            var before := Auth.Login(db, email, password, compare);
            var after := Auth.Login(db', email, password, compare);
            && after.status == before.status
            && (after.status == Ok ==> after.body.user.subscriptionStatus == before.body.user.subscriptionStatus)
  {
    var db' := UpdateSubscription(db, userId, status, expiryDays, now, parseInt).db;
    Auth.FirstWithEmailSameEmails(db.users, db'.users, email);
  }

  /** Last write wins: two subscription updates for one user leave exactly the
      second update's status and expiry, with no duplicated row. */
  lemma SubscriptionUpdateLastWriteWins(db: Db, userId: Field, s1: Field, d1: Field, t1: int,
                                        s2: Field, d2: Field, t2: int, parseInt: Field -> Option<int>)
    ensures var once := UpdateSubscription(db, userId, s2, d2, t2, parseInt).db;
            UpdateSubscription(UpdateSubscription(db, userId, s1, d1, t1, parseInt).db, userId, s2, d2, t2, parseInt).db == once
  {
    var mid := UpdateSubscription(db, userId, s1, d1, t1, parseInt).db;
    var twice := UpdateSubscription(mid, userId, s2, d2, t2, parseInt).db;
    var once := UpdateSubscription(db, userId, s2, d2, t2, parseInt).db;
    assert forall i :: 0 <= i < |db.users| ==> mid.users[i].id == db.users[i].id;
    assert twice.users == once.users;
  }

  /** A role change takes effect in the token of the user's next login. */
  lemma RoleChangeReachesToken(db: Db, userId: Field, newRole: Field, email: Field, password: Field,
                               compare: (string, string) -> bool)
    requires Auth.FirstWithEmail(db.users, email).Some?
    requires Names(userId, db.users[Auth.FirstWithEmail(db.users, email).value].id)
    ensures var after := Auth.Login(UpdateUserRole(db, userId, newRole).db, email, password, compare);
            after.status == Ok ==> after.body.token.claims.role == newRole
  {
    var db' := UpdateUserRole(db, userId, newRole).db;
    Auth.FirstWithEmailSameEmails(db.users, db'.users, email);
  }

  /** A broadcast signal is unapproved, so no non-admin listing shows it. */
  lemma BroadcastHiddenFromUsers(t: SignalTable, pair: Field, kind: Field, entry: Field, sl: Field, tp: Field,
                                 caller: Claims, now: int, role: Field)
    requires role != Some("admin")
    ensures var t' := Broadcast(t, pair, kind, entry, sl, tp, caller, now, true).table;
            t'.rows[|t.rows|] !in Signals.ListFor(t', role).body.signals
  {
  }
}

=== FILE: auth.dfy ===
/** The authentication controller: registration (which only issues a code),
    login, the code-gated account creation and password reset, and the
    code resend / forgotten-password requests.

    Password hashing and comparison are the oracles `hash` and `compare`;
    the session token is returned unsigned, as the payload handed to the
    signing library. */
module Auth {
  import opened Wrappers
  import opened Js
  import opened Schema
  import opened Http
  import Otp

  /** The role column's default for a newly inserted user (the insert names no role). */
  const DefaultRole: Field := Some("user")
  /** The subscription status written for a new account, and reported at
      login when the account has no `subscriptions` row. */
  const NoSubscription := "expired"
  const TokenLifetime := "1d"

  const RegistrationError := "Database error during registration"
  const ResetError := "Failed to reset password"

  /** A handler's reply together with the account tables and the code store
      it leaves behind. */
  datatype Outcome = Outcome(reply: Reply, db: Db, codes: Otp.Store)

  /** `!username || !email || !password` is false and the username has no space. */
  predicate RegistrationWellFormed(username: Field, email: Field, password: Field) {
    Truthy(username) && Truthy(email) && Truthy(password) && ' ' !in username.value
  }

  /** `SELECT id FROM users WHERE email = ? OR username = ?` finds a row. */
  predicate Taken(db: Db, username: Field, email: Field) {
    exists i :: 0 <= i < |db.users| && (SqlEq(email, db.users[i].email) || SqlEq(username, db.users[i].username))
  }

  /** `register`: validates, rejects a taken email or username, then sends a
      code. It never writes the account tables. */
  function Register(db: Db, codes: Otp.Store, username: Field, email: Field, password: Field,
                    code: string, now: int, dispatch: Otp.Dispatch): (r: Outcome)
    ensures r.db == db
    ensures r.reply.status == BadRequest <==> !RegistrationWellFormed(username, email, password)
    ensures r.reply.status == Conflict <==> RegistrationWellFormed(username, email, password) && Taken(db, username, email)
    ensures r.reply.status == Ok <==>
              RegistrationWellFormed(username, email, password) && !Taken(db, username, email) && dispatch.Delivered?
    ensures r.reply.status in {BadRequest, Conflict} ==> r.codes == codes
    ensures r.reply.status in {Ok, ServerError} ==> r.codes == Otp.Issue(codes, email, code, now)
    ensures r.reply.status == Ok ==> r.reply.body == OtpSent("OTP sent", email.value, username.value, password.value)
    ensures RegistrationWellFormed(username, email, password) && !Taken(db, username, email) && dispatch.DispatchFailed? ==>
              r.reply == Reply(ServerError, Error(dispatch.error))
  {
    if !Truthy(username) || !Truthy(email) || !Truthy(password) then
      Outcome(Reply(BadRequest, Message("All fields are required")), db, codes)
    else if ' ' in username.value then
      Outcome(Reply(BadRequest, Message("Username cannot contain spaces")), db, codes)
    else if Taken(db, username, email) then
      Outcome(Reply(Conflict, Message("Username or email already exists")), db, codes)
    else
      var sent := Otp.Send(codes, email, code, now, dispatch);
      match sent.outcome
      case SendOk(_, _) =>
        Outcome(Reply(Ok, OtpSent("OTP sent", email.value, username.value, password.value)), db, sent.store)
      case SendThrew(e) => Outcome(Reply(ServerError, Error(e)), db, sent.store)
  }

  /** The row `SELECT ... FROM users WHERE email = ?` yields first. */
  function FirstWithEmail(users: seq<User>, email: Field): (r: Option<nat>)
    ensures r.None? <==> forall i :: 0 <= i < |users| ==> !SqlEq(email, users[i].email)
    ensures r.Some? ==> r.value < |users| && SqlEq(email, users[r.value].email)
    ensures r.Some? ==> forall i :: 0 <= i < r.value ==> !SqlEq(email, users[i].email)
  {
    if |users| == 0 then None
    else if SqlEq(email, users[0].email) then Some(0)
    else
      match FirstWithEmail(users[1..], email)
      case None => None
      case Some(k) => Some(k + 1)
  }

  /** Login accepts the submitted password when it equals the stored column
      verbatim, or when the hash comparison succeeds (a comparison that
      throws counts as a mismatch, so `compare` is total). */
  predicate PasswordAccepted(given: Field, stored: string, compare: (string, string) -> bool) {
    given == Some(stored) || (given.Some? && compare(given.value, stored))
  }

  /** The status of the user's first `subscriptions` row, else "expired". */
  function SubscriptionStatus(subscriptions: seq<SubscriptionRow>, userId: nat): (s: string)
    ensures (forall i :: 0 <= i < |subscriptions| ==> subscriptions[i].userId != userId) ==> s == NoSubscription
    ensures forall i ::
              (0 <= i < |subscriptions| && subscriptions[i].userId == userId &&
               forall j :: 0 <= j < i ==> subscriptions[j].userId != userId)
              ==> s == subscriptions[i].status
  {
    if |subscriptions| == 0 then NoSubscription
    else if subscriptions[0].userId == userId then subscriptions[0].status
    else
      var s := SubscriptionStatus(subscriptions[1..], userId);
      assert forall i :: 1 <= i < |subscriptions| ==> subscriptions[i] == subscriptions[1..][i - 1];
      s
  }

  /** `login`: 404 for an unknown email, 401 for a rejected password,
      otherwise the token payload `{id, role}` and the subscription status
      read from the `subscriptions` table. */
  function Login(db: Db, email: Field, password: Field, compare: (string, string) -> bool): (r: Reply)
    ensures r.status == NotFound <==> FirstWithEmail(db.users, email).None?
    ensures r.status == Unauthorized <==>
              FirstWithEmail(db.users, email).Some? &&
              !PasswordAccepted(password, db.users[FirstWithEmail(db.users, email).value].password, compare)
    ensures r.status == Ok <==>
              FirstWithEmail(db.users, email).Some? &&
              PasswordAccepted(password, db.users[FirstWithEmail(db.users, email).value].password, compare)
    ensures r.status == Ok ==>
              var u := db.users[FirstWithEmail(db.users, email).value];
              r.body == LoggedIn(Token(Claims(u.id, u.role), TokenLifetime),
                                 Profile(u.id, u.username, u.role, SubscriptionStatus(db.subscriptions, u.id)))
  {
    match FirstWithEmail(db.users, email)
    case None => Reply(NotFound, Message("User not found"))
    case Some(k) =>
      var u := db.users[k];
      if !PasswordAccepted(password, u.password, compare) then Reply(Unauthorized, Message("Invalid credentials"))
      else
        var status := SubscriptionStatus(db.subscriptions, u.id);
        Reply(Ok, LoggedIn(Token(Claims(u.id, u.role), TokenLifetime), Profile(u.id, u.username, u.role, status)))
  }

  /** The account a successful code verification inserts. */
  function NewUser(db: Db, username: Field, email: Field, hashed: string): User {
    User(db.nextUserId, username, email, hashed, DefaultRole, None, None)
  }

  /** `verifyOTP` with the verifier the module evidently meant to import
      (`Otp.Verify`): a failed check is a 400; a passed check inserts the
      user and then an "expired" subscriptions row. The code is consumed by
      the check itself, so a later failure (hashing an absent password)
      still leaves it spent. */
  function VerifyOtp(db: Db, codes: Otp.Store, email: Field, otp: Field, username: Field, password: Field,
                     hash: string -> string, now: int): (r: Outcome)
    ensures r.codes == Otp.Verify(codes, email, otp, now).store
    ensures r.reply.status == BadRequest <==> Otp.Verify(codes, email, otp, now).check.Rejected?
    ensures r.reply.status == CreatedStatus <==> Otp.Verify(codes, email, otp, now).check.Verified? && password.Some?
    ensures r.reply.status != CreatedStatus ==> r.db == db
    ensures r.reply.status !in {BadRequest, CreatedStatus} ==> r.reply == Reply(ServerError, Error(RegistrationError))
    ensures r.reply.status == CreatedStatus ==>
              && r.db.users == db.users + [NewUser(db, username, email, hash(password.value))]
              && r.db.subscriptions == db.subscriptions + [SubscriptionRow(db.nextUserId, NoSubscription)]
              && r.db.nextUserId == db.nextUserId + 1
  {
    var v := Otp.Verify(codes, email, otp, now);
    match v.check
    case Threw(_) => Outcome(Reply(ServerError, Error(RegistrationError)), db, v.store)
    case Rejected(m) => Outcome(Reply(BadRequest, Message(m)), db, v.store)
    case Verified(_) =>
      if password.None? then Outcome(Reply(ServerError, Error(RegistrationError)), db, v.store)
      else
        var user := NewUser(db, username, email, hash(password.value));
        var db' := Db(db.users + [user], db.subscriptions + [SubscriptionRow(user.id, NoSubscription)], db.nextUserId + 1);
        Outcome(Reply(CreatedStatus, Success("Registered!")), db', Otp.Clear(v.store, email))
  }

  /** `verifyOTP` as written: the imported name `verifyOTPLogic` is not
      exported by the OTP module, so the call throws before anything is
      read or written and the handler always answers 500. */
  function VerifyOtpAsWritten(db: Db, codes: Otp.Store, email: Field, otp: Field, username: Field, password: Field): (r: Outcome)
    ensures r.reply.status == ServerError
    ensures r.db == db && r.codes == codes
  {
    Outcome(Reply(ServerError, Error(RegistrationError)), db, codes)
  }

  /** `resetPassword` with the intended verifier: a passed check rewrites the
      password of every row with that email (none, if there is no such
      account, which is still reported as success). */
  function ResetPassword(db: Db, codes: Otp.Store, email: Field, otp: Field, newPassword: Field,
                         hash: string -> string, now: int): (r: Outcome)
    ensures r.codes == Otp.Verify(codes, email, otp, now).store
    ensures r.reply.status == BadRequest <==> Otp.Verify(codes, email, otp, now).check.Rejected?
    ensures r.reply.status == Ok <==> Otp.Verify(codes, email, otp, now).check.Verified? && newPassword.Some?
    ensures r.reply.status != Ok ==> r.db == db
    ensures r.reply.status !in {BadRequest, Ok} ==> r.reply == Reply(ServerError, Error(ResetError))
    ensures r.db.subscriptions == db.subscriptions && r.db.nextUserId == db.nextUserId
    ensures |r.db.users| == |db.users|
    ensures r.reply.status == Ok ==>
              forall i :: 0 <= i < |db.users| ==>
                r.db.users[i] == if SqlEq(email, db.users[i].email)
                                 then db.users[i].(password := hash(newPassword.value))
                                 else db.users[i]
  {
    var v := Otp.Verify(codes, email, otp, now);
    match v.check
    case Threw(_) => Outcome(Reply(ServerError, Error(ResetError)), db, v.store)
    case Rejected(m) => Outcome(Reply(BadRequest, Message(m)), db, v.store)
    case Verified(_) =>
      if newPassword.None? then Outcome(Reply(ServerError, Error(ResetError)), db, v.store)
      else
        var users := SetPassword(db.users, email, hash(newPassword.value));
        Outcome(Reply(Ok, Success("Password reset successful")), db.(users := users), Otp.Clear(v.store, email))
  }

  /** `UPDATE users SET password = ? WHERE email = ?`. */
  function SetPassword(users: seq<User>, email: Field, hashed: string): (r: seq<User>)
    ensures |r| == |users|
    ensures forall i :: 0 <= i < |users| ==>
              r[i] == if SqlEq(email, users[i].email) then users[i].(password := hashed) else users[i]
  {
    if |users| == 0 then []
    else [if SqlEq(email, users[0].email) then users[0].(password := hashed) else users[0]]
         + SetPassword(users[1..], email, hashed)
  }

  /** `resetPassword` as written: the same missing import, so always 500. */
  function ResetPasswordAsWritten(db: Db, codes: Otp.Store, email: Field, otp: Field, newPassword: Field): (r: Outcome)
    ensures r.reply.status == ServerError
    ensures r.db == db && r.codes == codes
  {
    Outcome(Reply(ServerError, Error(ResetError)), db, codes)
  }

  /** `resendOTP`: always stores a fresh code; the reply tracks the dispatch. */
  function ResendOtp(db: Db, codes: Otp.Store, email: Field, code: string, now: int, dispatch: Otp.Dispatch): (r: Outcome)
    ensures r.db == db
    ensures r.codes == Otp.Issue(codes, email, code, now)
    ensures r.reply.status == Ok <==> dispatch.Delivered?
    ensures r.reply.status != Ok ==> r.reply == Reply(ServerError, Message("Failed to resend OTP"))
  {
    var sent := Otp.Send(codes, email, code, now, dispatch);
    if sent.outcome.SendOk? then Outcome(Reply(Ok, Message("OTP resent successfully")), db, sent.store)
    else Outcome(Reply(ServerError, Message("Failed to resend OTP")), db, sent.store)
  }

  /** `forgotPassword`: an unknown email is a 404 and issues no code. */
  function ForgotPassword(db: Db, codes: Otp.Store, email: Field, code: string, now: int, dispatch: Otp.Dispatch): (r: Outcome)
    ensures r.db == db
    ensures r.reply.status == NotFound <==> FirstWithEmail(db.users, email).None?
    ensures r.reply.status == NotFound ==> r.codes == codes
    ensures r.reply.status != NotFound ==> r.codes == Otp.Issue(codes, email, code, now)
    ensures r.reply.status == Ok <==> FirstWithEmail(db.users, email).Some? && dispatch.Delivered?
    ensures FirstWithEmail(db.users, email).Some? && dispatch.DispatchFailed? ==>
              r.reply == Reply(ServerError, Message("Failed to send OTP"))
  {
    if FirstWithEmail(db.users, email).None? then Outcome(Reply(NotFound, Message("User not found")), db, codes)
    else
      var sent := Otp.Send(codes, email, code, now, dispatch);
      if sent.outcome.SendOk? then Outcome(Reply(Ok, Message("OTP sent")), db, sent.store)
      else Outcome(Reply(ServerError, Message("Failed to send OTP")), db, sent.store)
  }

  /** Ids in both account tables are below the auto-increment counter. */
  predicate Consistent(db: Db) {
    && FreshUserIds(db)
    && forall i :: 0 <= i < |db.subscriptions| ==> db.subscriptions[i].userId < db.nextUserId
  }

  lemma VerifyOtpKeepsConsistent(db: Db, codes: Otp.Store, email: Field, otp: Field, username: Field, password: Field,
                                 hash: string -> string, now: int)
    requires Consistent(db)
    ensures Consistent(VerifyOtp(db, codes, email, otp, username, password, hash, now).db)
  {
  }

  /** Appending a row whose email is new makes it the one login finds. */
  lemma {:induction false} FirstWithEmailAppend(users: seq<User>, u: User, email: Field)
    requires forall i :: 0 <= i < |users| ==> !SqlEq(email, users[i].email)
    requires SqlEq(email, u.email)
    ensures FirstWithEmail(users + [u], email) == Some(|users|)
  {
    if |users| > 0 {
      assert (users + [u])[1..] == users[1..] + [u];
      FirstWithEmailAppend(users[1..], u, email);
    }
  }

  /** End to end: a registration that sent a code, followed by verifying that
      code before it expires, creates an account that can log in with its
      password, holding the default role and an "expired" subscription. */
  lemma RegisteredAccountLogsIn(db: Db, codes: Otp.Store, username: Field, email: Field, password: Field,
                                code: string, issuedAt: int, now: int,
                                hash: string -> string, compare: (string, string) -> bool)
    requires Consistent(db)
    requires Register(db, codes, username, email, password, code, issuedAt, Otp.Delivered).reply.status == Ok
    requires now <= issuedAt + Otp.LifetimeMs
    requires password.Some? && compare(password.value, hash(password.value))
    ensures var codes1 := Register(db, codes, username, email, password, code, issuedAt, Otp.Delivered).codes;
            var v := VerifyOtp(db, codes1, email, Some(code), username, password, hash, now);
            && v.reply.status == CreatedStatus
            && email !in v.codes
            && var r := Login(v.db, email, password, compare);
               && r.status == Ok
               && r.body.token.claims == Claims(db.nextUserId, DefaultRole)
               && r.body.user.subscriptionStatus == NoSubscription
  {
    var codes1 := Register(db, codes, username, email, password, code, issuedAt, Otp.Delivered).codes;
    assert codes1 == Otp.Issue(codes, email, code, issuedAt);
    var v := VerifyOtp(db, codes1, email, Some(code), username, password, hash, now);
    var u := NewUser(db, username, email, hash(password.value));
    assert v.db.users == db.users + [u];
    assert !Taken(db, username, email);
    FirstWithEmailAppend(db.users, u, email);
    var subs := v.db.subscriptions;
    assert subs[|db.subscriptions|] == SubscriptionRow(u.id, NoSubscription);
    assert forall j :: 0 <= j < |db.subscriptions| ==> subs[j].userId != u.id;
  }

  /** A successful reset lets the account log in with the new password. */
  lemma ResetThenLogin(db: Db, codes: Otp.Store, email: Field, otp: Field, newPassword: Field,
                       hash: string -> string, compare: (string, string) -> bool, now: int)
    requires ResetPassword(db, codes, email, otp, newPassword, hash, now).reply.status == Ok
    requires FirstWithEmail(db.users, email).Some?
    requires compare(newPassword.value, hash(newPassword.value))
    ensures Login(ResetPassword(db, codes, email, otp, newPassword, hash, now).db, email, newPassword, compare).status == Ok
  {
    var r := ResetPassword(db, codes, email, otp, newPassword, hash, now);
    var k := FirstWithEmail(db.users, email).value;
    assert r.db.users[k] == db.users[k].(password := hash(newPassword.value));
    assert forall i :: 0 <= i < |db.users| ==> r.db.users[i].email == db.users[i].email;
    assert FirstWithEmail(r.db.users, email) == Some(k) by {
      FirstWithEmailSameEmails(db.users, r.db.users, email);
    }
  }

  /** Login's lookup depends on the email column only. */
  lemma {:induction false} FirstWithEmailSameEmails(a: seq<User>, b: seq<User>, email: Field)
    requires |a| == |b|
    requires forall i :: 0 <= i < |a| ==> a[i].email == b[i].email
    ensures FirstWithEmail(a, email) == FirstWithEmail(b, email)
  {
    if |a| > 0 {
      FirstWithEmailSameEmails(a[1..], b[1..], email);
    }
  }

  /** A forgotten-password request for a known account issues a code that
      the (intended) reset handler accepts until it expires. */
  lemma ForgotThenReset(db: Db, codes: Otp.Store, email: Field, code: string, now: int,
                        newPassword: string, hash: string -> string, later: int)
    requires FirstWithEmail(db.users, email).Some?
    requires later <= now + Otp.LifetimeMs
    ensures var f := ForgotPassword(db, codes, email, code, now, Otp.Delivered);
            && f.reply.status == Ok
            && ResetPassword(f.db, f.codes, email, Some(code), Some(newPassword), hash, later).reply.status == Ok
  {
    Otp.IssuedCodeAcceptedUntilExpiry(codes, email, code, now, later);
  }

  /** A resend supersedes the earlier code: any other code is refused from
      then on, and the new one is accepted until it expires. */
  lemma ResendSupersedes(db: Db, codes: Otp.Store, email: Field, code: string, now: int, dispatch: Otp.Dispatch,
                         earlier: string, later: int)
    requires earlier != code
    ensures var r := ResendOtp(db, codes, email, code, now, dispatch);
            && Otp.Verify(r.codes, email, Some(earlier), later).check.Rejected?
            && (Otp.Verify(r.codes, email, Some(code), later).check.Verified? <==> later <= now + Otp.LifetimeMs)
  {
    Otp.IssuedCodeAcceptedUntilExpiry(codes, email, code, now, later);
  }

  /** The import mismatch made concrete: a freshly issued code, submitted
      correctly and in time, is refused by the handler as written and accepted
      by the intended one. */
  lemma VerifyOtpImportMismatch(db: Db, hash: string -> string)
    ensures var email := Some("trader@example.com");
            var codes := Otp.Issue(map[], email, "123456", 0);
            && VerifyOtpAsWritten(db, codes, email, Some("123456"), Some("trader"), Some("secret!")).reply.status == ServerError
            && VerifyOtp(db, codes, email, Some("123456"), Some("trader"), Some("secret!"), hash, 0).reply.status == CreatedStatus
  {
  }
}

=== FILE: chat.dfy ===
/** The AI-coach endpoint: it wraps the user's question in the coaching
    prompt, sends it to the language-model service and digs the answer out of
    whichever reply shape comes back.

    The service call is the oracle `generate`, and `JSON.stringify` of a reply
    the oracle `stringify`; the debug logging is left out. */
module Chat {
  import opened Wrappers
  import opened Js
  import opened Http
  import Text

  const Preamble := "You are the Shadow Howl AI Coach. Answer this: "
  const Mandate := ". MANDATORY: End with 'This is not financial advice. Trade at your own risk.'"
  const FallbackPrefix := "Response received but could not extract text. Raw: "
  const RawLimit: nat := 200

  /** The text sent to the model: the question (or "undefined") between the
      coaching preamble and the disclaimer mandate. */
  function Prompt(question: Field): (p: string)
    ensures Text.StartsWith(p, Preamble) && Text.EndsWith(p, Mandate)
    ensures |p| == |Preamble| + |Render(question)| + |Mandate|
  {
    Preamble + Render(question) + Mandate
  }

  /** The question can be read back out of the prompt, so distinct questions
      yield distinct prompts. */
  lemma PromptEmbedsQuestion(question: Field)
    ensures var p := Prompt(question); p[|Preamble|..|p| - |Mandate|] == Render(question)
  {
  }

  /** What the service call produced: a reply value, or a rejection. */
  datatype Generation = Generated(response: JsValue) | GenerateFailed(message: string)

  /** `c?.parts?.[0]?.text`. */
  function FirstPartText(c: JsValue): JsValue {
    OptGet(OptAt(OptGet(c, "parts"), 0), "text")
  }

  /** `response.candidates[0]?.content?.parts?.[0]?.text`, given truthy
      candidates. */
  function CandidateText(candidates: JsValue): JsValue {
    FirstPartText(OptGet(OptAt(candidates, 0), "content"))
  }

  datatype Extraction = Extracted(answer: JsValue) | ExtractThrew(message: string)

  function FallbackAnswer(response: JsValue, stringify: JsValue -> string): string {
    FallbackPrefix + Text.Take(stringify(response), RawLimit)
  }

  /** The answer extraction, trying the reply shapes in order: candidate
      text, a `text` property, content text, the reply itself when it is a
      string, and otherwise a note quoting the first 200 characters of the
      raw reply. Reading `candidates` of a null or undefined reply throws. */
  function Extract(response: JsValue, stringify: JsValue -> string): (r: Extraction)
    ensures r.ExtractThrew? <==> IsNullish(response)
    ensures r.Extracted? && !response.Str? ==> IsTruthy(r.answer)
    ensures response.Str? ==> r == Extracted(response)
  {
    match Get(response, "candidates")
    case None =>
      ExtractThrew("Cannot read properties of " + (if response.Null? then "null" else "undefined") + " (reading 'candidates')")
    case Some(candidates) =>
      if IsTruthy(candidates) && IsTruthy(CandidateText(candidates)) then Extracted(CandidateText(candidates))
      else if IsTruthy(Get(response, "text").value) then Extracted(Get(response, "text").value)
      else if IsTruthy(FirstPartText(Get(response, "content").value)) then Extracted(FirstPartText(Get(response, "content").value))
      else if response.Str? then Extracted(response)
      else Extracted(Str(FallbackAnswer(response, stringify)))
  }

  /** `askAssistant`: 200 with the extracted answer, or 500 naming the
      service's or the extraction's error. */
  function AskAssistant(question: Field, generate: string -> Generation, stringify: JsValue -> string): (reply: Reply)
    ensures reply.status == Ok <==> generate(Prompt(question)).Generated? && !IsNullish(generate(Prompt(question)).response)
    ensures reply.status == Ok ==> reply.body == Answer(Extract(generate(Prompt(question)).response, stringify).answer)
    ensures reply.status != Ok ==> reply.status == ServerError && reply.body.Error? && Text.StartsWith(reply.body.error, "AI Error: ")
    ensures generate(Prompt(question)).GenerateFailed? ==> reply.body == Error("AI Error: " + generate(Prompt(question)).message)
  {
    match generate(Prompt(question))
    case GenerateFailed(message) => Reply(ServerError, Error("AI Error: " + message))
    case Generated(response) =>
      match Extract(response, stringify)
      case ExtractThrew(message) => Reply(ServerError, Error("AI Error: " + message))
      case Extracted(answer) => Reply(Ok, Answer(answer))
  }

  /** The candidate shape wins over every other: a reply that carries
      candidate text is answered with exactly that text. */
  lemma CandidateTextWins(text: string, extra: map<string, JsValue>, stringify: JsValue -> string)
    requires text != ""
    ensures var part := Obj(map["text" := Str(text)]);
            var content := Obj(map["parts" := Arr([part])]);
            var response := Obj(extra["candidates" := Arr([Obj(map["content" := content])])]);
            Extract(response, stringify) == Extracted(Str(text))
  {
    var part := Obj(map["text" := Str(text)]);
    var content := Obj(map["parts" := Arr([part])]);
    var candidates := Arr([Obj(map["content" := content])]);
    assert OptAt(candidates, 0) == Obj(map["content" := content]);
    assert OptAt(Arr([part]), 0) == part;
  }

  /** The first rule fails: the reply has no truthy candidates, or their
      first part has no truthy text. */
  predicate NoCandidateText(response: JsValue)
    requires !IsNullish(response)
  {
    var candidates := Get(response, "candidates").value;
    !(IsTruthy(candidates) && IsTruthy(CandidateText(candidates)))
  }

  /** Without candidate text, a truthy `text` property is the answer, whatever
      else the reply carries. */
  lemma TextPropertyUsedWithoutCandidates(response: JsValue, stringify: JsValue -> string)
    requires !IsNullish(response) && NoCandidateText(response)
    requires IsTruthy(Get(response, "text").value)
    ensures Extract(response, stringify) == Extracted(Get(response, "text").value)
  {
  }

  /** Without candidate text or a truthy `text`, a truthy text of the first
      part of `content` is the answer. */
  lemma ContentShapeUsedLast(response: JsValue, stringify: JsValue -> string)
    requires !IsNullish(response) && NoCandidateText(response)
    requires !IsTruthy(Get(response, "text").value)
    requires IsTruthy(FirstPartText(Get(response, "content").value))
    ensures Extract(response, stringify) == Extracted(FirstPartText(Get(response, "content").value))
  {
  }

  /** A reply with no recognisable shape is quoted, never dropped: a reply
      that is not a string and matches none of the three shapes is answered
      with the fallback note over its serialisation. */
  lemma UnrecognisedReplyIsQuoted(response: JsValue, stringify: JsValue -> string)
    requires !IsNullish(response) && !response.Str? && NoCandidateText(response)
    requires !IsTruthy(Get(response, "text").value)
    requires !IsTruthy(FirstPartText(Get(response, "content").value))
    ensures Extract(response, stringify) == Extracted(Str(FallbackAnswer(response, stringify)))
    ensures Text.StartsWith(FallbackAnswer(response, stringify), FallbackPrefix)
    ensures |FallbackAnswer(response, stringify)| <= |FallbackPrefix| + RawLimit
  {
  }
}

=== FILE: errors.dfy ===
/** The application error taxonomy (`AppError` and its subclasses, with
    their JSON rendering) and the global error-handling middleware that
    classifies whatever reached it into one of them.

    The environment (`process.env.NODE_ENV`), the construction timestamp and
    the stack trace are parameters. */
module Errors {
  import opened Wrappers
  import opened Js
  import Text

  /** Which class built the error, with the class's own extra fields. */
  datatype Kind =
    | Plain
    | Validation(details: JsValue)
    | Authentication
    | Authorization
    | NotFound
    | Conflict
    | Database(originalError: Option<string>)   // the wrapped error's message
    | ExternalService(service: string)
    | RateLimit(retryAfter: int)

  /** An operational error (every `AppError` is operational). */
  datatype AppError = AppError(message: string, statusCode: int, errorCode: string, timestamp: string, kind: Kind)

  /** `new AppError(message, statusCode, errorCode)`: a missing or empty code
      becomes `ERR_<statusCode>`. */
  function NewAppError(message: string, statusCode: int, errorCode: Field, timestamp: string): (e: AppError)
    ensures e.message == message && e.statusCode == statusCode && e.timestamp == timestamp && e.kind == Plain
    ensures Truthy(errorCode) ==> e.errorCode == errorCode.value
    ensures !Truthy(errorCode) ==> e.errorCode == "ERR_" + Text.IntToString(statusCode)
  {
    AppError(message, statusCode, if Truthy(errorCode) then errorCode.value else "ERR_" + Text.IntToString(statusCode),
             timestamp, Plain)
  }

  function ValidationError(message: Option<string>, details: JsValue, timestamp: string): (e: AppError)
    ensures e.statusCode == 400 && e.errorCode == "VALIDATION_ERROR"
    ensures e.message == message.GetOr("Validation failed")
    ensures e.kind == Validation(if details.Undefined? then Null else details)
  {
    AppError(message.GetOr("Validation failed"), 400, "VALIDATION_ERROR", timestamp,
             Validation(if details.Undefined? then Null else details))
  }

  function AuthenticationError(message: Option<string>, timestamp: string): (e: AppError)
    ensures e.statusCode == 401 && e.errorCode == "AUTH_ERROR"
    ensures e.message == message.GetOr("Authentication failed")
  {
    AppError(message.GetOr("Authentication failed"), 401, "AUTH_ERROR", timestamp, Authentication)
  }

  function AuthorizationError(message: Option<string>, timestamp: string): (e: AppError)
    ensures e.statusCode == 403 && e.errorCode == "FORBIDDEN"
    ensures e.message == message.GetOr("You do not have permission to access this resource")
  {
    AppError(message.GetOr("You do not have permission to access this resource"), 403, "FORBIDDEN", timestamp, Authorization)
  }

  function NotFoundError(resource: Option<string>, timestamp: string): (e: AppError)
    ensures e.statusCode == 404 && e.errorCode == "NOT_FOUND"
    ensures Text.EndsWith(e.message, " not found")
    ensures e.message == resource.GetOr("Resource") + " not found"
  {
    AppError(resource.GetOr("Resource") + " not found", 404, "NOT_FOUND", timestamp, NotFound)
  }

  function ConflictError(message: Option<string>, timestamp: string): (e: AppError)
    ensures e.statusCode == 409 && e.errorCode == "CONFLICT"
    ensures e.message == message.GetOr("Resource already exists")
  {
    AppError(message.GetOr("Resource already exists"), 409, "CONFLICT", timestamp, Conflict)
  }

  function DatabaseError(message: Option<string>, originalError: Option<string>, timestamp: string): (e: AppError)
    ensures e.statusCode == 500 && e.errorCode == "DATABASE_ERROR"
    ensures e.message == message.GetOr("Database operation failed")
    ensures e.kind == Database(originalError)
  {
    AppError(message.GetOr("Database operation failed"), 500, "DATABASE_ERROR", timestamp, Database(originalError))
  }

  /** A missing or empty message names the service. */
  function ExternalServiceError(service: Option<string>, message: Field, timestamp: string): (e: AppError)
    ensures e.statusCode == 503 && e.errorCode == "SERVICE_UNAVAILABLE"
    ensures Truthy(message) ==> e.message == message.value
    ensures !Truthy(message) ==>
              e.message == service.GetOr("External Service") + " is temporarily unavailable. Please try again later."
    ensures e.kind == ExternalService(service.GetOr("External Service"))
  {
    var s := service.GetOr("External Service");
    AppError(if Truthy(message) then message.value else s + " is temporarily unavailable. Please try again later.",
             503, "SERVICE_UNAVAILABLE", timestamp, ExternalService(s))
  }

  function RateLimitError(retryAfter: Option<int>, timestamp: string): (e: AppError)
    ensures e.statusCode == 429 && e.errorCode == "RATE_LIMITED"
    ensures e.kind == RateLimit(retryAfter.GetOr(60))
  {
    AppError("Too many requests. Please try again later.", 429, "RATE_LIMITED", timestamp, RateLimit(retryAfter.GetOr(60)))
  }

  /** The `error` object of the JSON body; optional members are `None` when
      absent. */
  datatype ErrorBody = ErrorBody(
    code: string,
    message: string,
    statusCode: int,
    timestamp: string,
    stack: Option<string>,
    details: Option<JsValue>,
    originalError: Option<string>,
    retryAfter: Option<int>)

  datatype ErrorJson = ErrorJson(success: bool, error: ErrorBody)

  predicate Development(env: Field) {
    env == Some("development")
  }

  /** `toJSON()`, including the subclass overrides. */
  function ToJson(e: AppError, env: Field, stack: string): (j: ErrorJson)
    ensures !j.success
    ensures j.error.code == e.errorCode && j.error.message == e.message
    ensures j.error.statusCode == e.statusCode && j.error.timestamp == e.timestamp
    ensures j.error.stack.Some? <==> Development(env)
    ensures j.error.details.Some? <==> e.kind.Validation? && IsTruthy(e.kind.details)
    ensures j.error.details.Some? ==> j.error.details.value == e.kind.details
    ensures j.error.originalError.Some? <==> e.kind.Database? && e.kind.originalError.Some? && Development(env)
    ensures j.error.retryAfter.Some? <==> e.kind.RateLimit?
    ensures e.kind.RateLimit? ==> j.error.retryAfter == Some(e.kind.retryAfter)
  {
    var dev := Development(env);
    ErrorJson(false, ErrorBody(
      e.errorCode, e.message, e.statusCode, e.timestamp,
      if dev then Some(stack) else None,
      if e.kind.Validation? && IsTruthy(e.kind.details) then Some(e.kind.details) else None,
      if e.kind.Database? && e.kind.originalError.Some? && dev then e.kind.originalError else None,
      if e.kind.RateLimit? then Some(e.kind.retryAfter) else None))
  }

  /** `handleDatabaseError`: duplicate key and missing reference become
      client errors, connection failures 503, anything else a database error
      that keeps the original. */
  function HandleDatabaseError(code: string, message: string, timestamp: string): (e: AppError)
    ensures code == "ER_DUP_ENTRY" ==> e.statusCode == 409 && e.errorCode == "CONFLICT"
    ensures code == "ER_NO_REFERENCED_ROW_2" ==> e.statusCode == 400 && e.errorCode == "VALIDATION_ERROR"
    ensures e.statusCode == 503 <==> code in ProtocolCodes
    ensures e.errorCode == "SERVICE_UNAVAILABLE" <==> code in ProtocolCodes
    ensures code !in ProtocolCodes && code != "ER_DUP_ENTRY" && code != "ER_NO_REFERENCED_ROW_2" ==>
              e.statusCode == 500 && e.errorCode == "DATABASE_ERROR"
  {
    if code == "ER_DUP_ENTRY" then ConflictError(Some("Username or email already exists"), timestamp)
    else if code == "ER_NO_REFERENCED_ROW_2" then ValidationError(Some("Invalid reference: Resource does not exist"), Undefined, timestamp)
    else if code == "ER_BAD_FIELD_ERROR" then DatabaseError(Some("Invalid column name"), None, timestamp)
    else if code == "ER_PARSE_ERROR" then DatabaseError(Some("SQL syntax error"), None, timestamp)
    else if code == "PROTOCOL_CONNECTION_LOST" then ExternalServiceError(Some("Database"), Some("Database connection lost"), timestamp)
    else if code == "PROTOCOL_ENQUEUE_AFTER_FATAL_ERROR" then ExternalServiceError(Some("Database"), Some("Database connection is dead"), timestamp)
    else if code == "PROTOCOL_ENQUEUE_AFTER_DESTROY" then ExternalServiceError(Some("Database"), Some("Database connection destroyed"), timestamp)
    else DatabaseError(Some("An unexpected database error occurred"), Some(message), timestamp)
  }

  const ProtocolCodes: set<string> :=
    {"PROTOCOL_CONNECTION_LOST", "PROTOCOL_ENQUEUE_AFTER_FATAL_ERROR", "PROTOCOL_ENQUEUE_AFTER_DESTROY"}

  function JwtError(timestamp: string): (e: AppError)
    ensures e.statusCode == 401 && e.errorCode == "INVALID_TOKEN"
  {
    NewAppError("Invalid token. Please log in again.", 401, Some("INVALID_TOKEN"), timestamp)
  }

  function JwtExpiredError(timestamp: string): (e: AppError)
    ensures e.statusCode == 401 && e.errorCode == "TOKEN_EXPIRED"
  {
    NewAppError("Your session has expired. Please log in again.", 401, Some("TOKEN_EXPIRED"), timestamp)
  }

  /** What reaches the middleware: an `AppError`, or any other thrown error
      with its `name`, `message`, `code`, `statusCode` and (for a Mongoose
      validation error) the messages of its `errors` object. */
  datatype Thrown =
    | App(e: AppError)
    | Raw(name: string, message: string, code: Field, statusCode: Option<int>, errors: Option<seq<string>>)

  /** The middleware's reply, or the TypeError it throws itself (a
      "ValidationError"-named error without an `errors` object). */
  datatype Handled = Handled(status: int, json: ErrorJson) | HandlerThrew(message: string)

  /** `err.statusCode || 500`. */
  function StatusOr500(s: Option<int>): (r: int)
    ensures s.Some? && s.value != 0 ==> r == s.value
    ensures s.None? || s == Some(0) ==> r == 500
  {
    if s.Some? && s.value != 0 then s.value else 500
  }

  function Join(parts: seq<string>, sep: string): string {
    if |parts| == 0 then ""
    else if |parts| == 1 then parts[0]
    else parts[0] + sep + Join(parts[1..], sep)
  }

  const GenericMessage := "An unexpected error occurred. Please try again later."

  /** The operational error the middleware settles on for a raw error (before
      the non-operational fallback), in the source's order: database codes,
      then the token error names, then a Mongoose validation error, each later
      match overriding an earlier one. `None`: none applied. */
  function ClassifyRaw(name: string, message: string, code: Field, errors: Option<seq<string>>,
                       timestamp: string): (r: Option<AppError>)
    requires name == "ValidationError" ==> errors.Some?
    ensures r.None? <==> name !in {"ValidationError", "TokenExpiredError", "JsonWebTokenError"} &&
                         !(Truthy(code) && Text.StartsWith(code.value, "ER_"))
    ensures r.Some? ==> r.value.errorCode != "SERVICE_UNAVAILABLE"
  {
    if name == "ValidationError" then Some(ValidationError(Some(Join(errors.value, ", ")), Undefined, timestamp))
    else if name == "TokenExpiredError" then Some(JwtExpiredError(timestamp))
    else if name == "JsonWebTokenError" then Some(JwtError(timestamp))
    else if Truthy(code) && Text.StartsWith(code.value, "ER_") then
      ProtocolCodesAreNotEr(code.value);
      Some(HandleDatabaseError(code.value, message, timestamp))
    else None
  }

  /** `errorHandler`: the reply's status is always the final error's
      `statusCode`, and its body that error's JSON. */
  function ErrorHandler(err: Thrown, env: Field, timestamp: string, stack: string): (h: Handled)
    ensures h.Handled? ==> h.status == h.json.error.statusCode && !h.json.success
    ensures h.HandlerThrew? <==> err.Raw? && err.name == "ValidationError" && err.errors.None?
  {
    match err
    case App(e) =>
      var e' := e.(statusCode := StatusOr500(Some(e.statusCode)));
      Handled(e'.statusCode, ToJson(e', env, stack))
    case Raw(name, message, code, statusCode, errors) =>
      if name == "ValidationError" && errors.None? then HandlerThrew("Cannot convert undefined or null to object")
      else
        var final := match ClassifyRaw(name, message, code, errors, timestamp)
          case Some(e) => e
          case None =>
            NewAppError(if env == Some("production") then GenericMessage else message,
                        StatusOr500(statusCode), Some("INTERNAL_SERVER_ERROR"), timestamp);
        Handled(final.statusCode, ToJson(final, env, stack))
  }

  /** The classification table of the middleware, case by case. */
  lemma ErrorHandlerClassifies(message: string, code: Field, statusCode: Option<int>, env: Field, ts: string, stack: string)
    ensures code == Some("ER_DUP_ENTRY") ==>
              var h := ErrorHandler(Raw("Error", message, code, statusCode, None), env, ts, stack);
              h.status == 409 && h.json.error.code == "CONFLICT"
    ensures code == Some("ER_NO_REFERENCED_ROW_2") ==>
              var h := ErrorHandler(Raw("Error", message, code, statusCode, None), env, ts, stack);
              h.status == 400 && h.json.error.code == "VALIDATION_ERROR"
    ensures var h := ErrorHandler(Raw("JsonWebTokenError", message, code, statusCode, None), env, ts, stack);
            h.status == 401 && h.json.error.code == "INVALID_TOKEN"
    ensures var h := ErrorHandler(Raw("TokenExpiredError", message, code, statusCode, None), env, ts, stack);
            h.status == 401 && h.json.error.code == "TOKEN_EXPIRED"
  {
    assert Text.StartsWith("ER_DUP_ENTRY", "ER_");
    assert Text.StartsWith("ER_NO_REFERENCED_ROW_2", "ER_");
  }

  /** Any other `ER_` code is a 500 database error. */
  lemma OtherDatabaseCodesAre500(name: string, message: string, code: string, statusCode: Option<int>,
                                 env: Field, ts: string, stack: string)
    requires Text.StartsWith(code, "ER_") && code != "ER_DUP_ENTRY" && code != "ER_NO_REFERENCED_ROW_2"
    requires name !in {"ValidationError", "TokenExpiredError", "JsonWebTokenError"}
    ensures var h := ErrorHandler(Raw(name, message, Some(code), statusCode, None), env, ts, stack);
            h.status == 500 && h.json.error.code == "DATABASE_ERROR"
  {
    ProtocolCodesAreNotEr(code);
  }

  /** No connection-failure code carries the `ER_` prefix. */
  lemma ProtocolCodesAreNotEr(code: string)
    requires Text.StartsWith(code, "ER_")
    ensures code !in ProtocolCodes
  {
    assert code[0] == 'E' by {
      assert "ER_"[0] == code[0];
    }
  }

  /** The connection-failure codes are mapped to 503 ... */
  lemma ProtocolCodesMapTo503(message: string, ts: string)
    ensures forall c :: c in ProtocolCodes ==> HandleDatabaseError(c, message, ts).statusCode == 503
  {
  }

  /** ... but that mapping is dead code from the middleware: it consults
      the database mapper only for `ER_` codes, so no raw error is ever
      answered with SERVICE_UNAVAILABLE. */
  lemma ProtocolMappingsUnreachable(name: string, message: string, code: Field, statusCode: Option<int>,
                                    errors: Option<seq<string>>, env: Field, ts: string, stack: string)
    ensures var h := ErrorHandler(Raw(name, message, code, statusCode, errors), env, ts, stack);
            h.Handled? ==> h.json.error.code != "SERVICE_UNAVAILABLE"
  {
  }

  /** An unrecognised error keeps its status (500 when it has none) and is
      reported as INTERNAL_SERVER_ERROR, with a generic message in production
      and its own message otherwise. */
  lemma UnknownErrorsAreInternal(name: string, message: string, code: Field, statusCode: Option<int>,
                                 env: Field, ts: string, stack: string)
    requires name !in {"ValidationError", "TokenExpiredError", "JsonWebTokenError"}
    requires !(Truthy(code) && Text.StartsWith(code.value, "ER_"))
    ensures var h := ErrorHandler(Raw(name, message, code, statusCode, None), env, ts, stack);
            && h.Handled?
            && h.json.error.code == "INTERNAL_SERVER_ERROR"
            && h.status == (if statusCode.Some? && statusCode.value != 0 then statusCode.value else 500)
            && h.json.error.message == (if env == Some("production") then GenericMessage else message)
  {
  }

  /** An application error is answered with its own status and JSON. */
  lemma AppErrorsPassThrough(e: AppError, env: Field, ts: string, stack: string)
    requires e.statusCode != 0
    ensures ErrorHandler(App(e), env, ts, stack) == Handled(e.statusCode, ToJson(e, env, stack))
  {
  }
}

=== FILE: frontend.dfy ===
/** The browser side: the route guard and route table of the single-page
    app, and the two OTP forms (account verification and password reset)
    with their input sanitising, submit-button rule, validation chain and
    reply handling.

    Local storage, the navigation state and the server's answer are
    parameters; rendering, timers and the resend buttons are left out. */
module Frontend {
  import opened Wrappers
  import opened Js
  import Text
  import Otp

  /** What a route renders. */
  datatype Page = LoginPage | RegisterPage | RestrictedPage | FeedPage | ChatPage | AdminPage | VerifyOtpPage | ResetPasswordPage

  datatype Screen = Show(page: Page) | Navigate(to: string)

  /** `ProtectedRoute`: no token sends the visitor to the login page; a
      required role that the stored role does not equal sends them to the
      feed; otherwise the guarded page renders. */
  function ProtectedRoute(page: Page, token: Field, role: Field, roleRequired: Field): (s: Screen)
    ensures s == Show(page) <==> Truthy(token) && (!Truthy(roleRequired) || role == roleRequired)
    ensures !Truthy(token) ==> s == Navigate("/login")
    ensures Truthy(token) && Truthy(roleRequired) && role != roleRequired ==> s == Navigate("/feed")
  {
    if !Truthy(token) then Navigate("/login")
    else if Truthy(roleRequired) && role != roleRequired then Navigate("/feed")
    else Show(page)
  }

  /** The app's route table, with the stored token and role: a page behind
      the guard shows only with a token, every redirect leads to the login
      page or the feed, and a public page shows itself whatever is stored. */
  function App(path: string, token: Field, role: Field): (s: Screen)
    ensures s.Show? && s.page in {FeedPage, ChatPage, AdminPage} ==> Truthy(token)
    ensures s.Navigate? ==> s.to in {"/login", "/feed"}
    ensures s.Navigate? && s.to == "/feed" ==> path == "/admin" && Truthy(token)
    ensures path == "/login" ==> s == Show(LoginPage)
    ensures path == "/register" ==> s == Show(RegisterPage)
    ensures path == "/restricted" ==> s == Show(RestrictedPage)
  {
    if path == "/login" then Show(LoginPage)
    else if path == "/register" then Show(RegisterPage)
    else if path == "/restricted" then Show(RestrictedPage)
    else if path == "/feed" then ProtectedRoute(FeedPage, token, role, None)
    else if path == "/chat/ask" then ProtectedRoute(ChatPage, token, role, None)
    else if path == "/admin" then ProtectedRoute(AdminPage, token, role, Some("admin"))
    else Navigate("/login")
  }

  /** Who may see what: the public pages need nothing, the feed and the
      coach a token, the admin console a token and the stored role "admin";
      every other path leads to the login page. */
  lemma AppGuards(path: string, token: Field, role: Field)
    ensures App(path, token, role) == Show(AdminPage) <==> path == "/admin" && Truthy(token) && role == Some("admin")
    ensures App(path, token, role) == Show(FeedPage) <==> path == "/feed" && Truthy(token)
    ensures App(path, token, role) == Show(ChatPage) <==> path == "/chat/ask" && Truthy(token)
    ensures path in {"/login", "/register", "/restricted"} ==> App(path, token, role).Show?
    ensures path !in {"/login", "/register", "/restricted", "/feed", "/chat/ask", "/admin"} ==>
              App(path, token, role) == Navigate("/login")
  {
  }

  /** A signed-in non-admin who opens the admin console lands on the feed. */
  lemma NonAdminBouncedToFeed(token: string, role: Field)
    requires token != "" && role != Some("admin")
    ensures App("/admin", Some(token), role) == Navigate("/feed")
  {
  }

  // ---- OTP input ----

  const OtpLength: nat := 6

  /** `replace(/\D/g, '')`: the digits of `s`, in order. */
  function DigitsOnly(s: string): (r: string)
    ensures Text.AllDigits(r) && |r| <= |s|
    ensures Text.AllDigits(s) ==> r == s
  {
    if |s| == 0 then ""
    else (if Text.IsDigit(s[0]) then [s[0]] else "") + DigitsOnly(s[1..])
  }

  /** The filter works character by character: it distributes over
      concatenation, keeps a digit and drops anything else. */
  lemma {:induction false} DigitsOnlyFilters(a: string, b: string)
    ensures DigitsOnly(a + b) == DigitsOnly(a) + DigitsOnly(b)
    ensures |a| == 1 ==> DigitsOnly(a) == if Text.IsDigit(a[0]) then a else ""
  {
    if |a| == 0 {
      assert a + b == b;
    } else {
      var head := if Text.IsDigit(a[0]) then [a[0]] else "";
      assert (a + b)[0] == a[0];
      assert (a + b)[1..] == a[1..] + b;
      DigitsOnlyFilters(a[1..], b);
      assert DigitsOnly(a + b) == head + DigitsOnly(a[1..] + b);
      assert DigitsOnly(a) == head + DigitsOnly(a[1..]);
      if |a| == 1 {
        assert a[1..] == "";
      }
    }
  }

  /** The OTP field: the browser caps the typed value at six characters and
      the change handler drops every non-digit. */
  function SanitiseOtp(typed: string): (otp: string)
    ensures Text.AllDigits(otp) && |otp| <= OtpLength
  {
    DigitsOnly(Text.Take(typed, OtpLength))
  }

  /** Typing into a field that is not yet full appends the typed character
      when it is a digit and otherwise leaves the field as it was. */
  lemma TypingAppendsDigits(typed: string, c: char)
    requires |typed| < OtpLength
    ensures SanitiseOtp(typed + [c]) == SanitiseOtp(typed) + (if Text.IsDigit(c) then [c] else "")
  {
    DigitsOnlyFilters(typed, [c]);
    DigitsOnlyFilters([c], "");
    assert [c] + "" == [c];
  }

  /** Sanitising is idempotent, and a six-digit code passes unchanged. */
  lemma SanitiseOtpIdempotent(typed: string)
    ensures SanitiseOtp(SanitiseOtp(typed)) == SanitiseOtp(typed)
    ensures |typed| == OtpLength && Text.AllDigits(typed) ==> SanitiseOtp(typed) == typed
  {
  }

  /** Every code the server issues can be typed into the field as is. */
  lemma IssuedCodeSurvivesInput(num: nat, den: nat)
    requires num < den
    ensures SanitiseOtp(Otp.Generate(num, den)) == Otp.Generate(num, den)
    ensures |SanitiseOtp(Otp.Generate(num, den))| == OtpLength
  {
  }

  // ---- Account verification page ----

  const OtpLengthMessage := "Please enter a valid 6-digit OTP"
  const VerifiedMessage := "Email verified! Redirecting to login..."
  const VerificationFailed := "Verification failed"

  /** The form's state. */
  datatype Form = Form(otp: string, message: string, isError: bool, isLoading: bool)

  /** The server's answer: success, or a failure with the reply body's
      `message` if there was one. */
  datatype Answer = Accepted | Failed(message: Field)

  /** The registration data the page was navigated with. */
  datatype Registration = Registration(email: Field, username: Field, password: Field)

  /** The page bounces back to registration unless all three are present. */
  function VerifyPage(state: Option<Registration>): (s: Screen)
    ensures s == Navigate("/register") <==>
              state.None? || !Truthy(state.value.email) || !Truthy(state.value.username) || !Truthy(state.value.password)
  {
    match state
    case None => Navigate("/register")
    case Some(reg) =>
      if !Truthy(reg.email) || !Truthy(reg.username) || !Truthy(reg.password) then Navigate("/register")
      else Show(VerifyOtpPage)
  }

  /** The verify button's `disabled` rule, negated. An enabled button sends
      whatever the server answers, and while nothing is loading the button
      is enabled exactly when the handler would send. */
  predicate CanSubmitVerify(f: Form): (enabled: bool)
    ensures enabled ==> forall answer :: SubmitVerify(f, answer).sent
    ensures !f.isLoading ==> (enabled <==> SubmitVerify(f, Accepted).sent)
  {
    !f.isLoading && |f.otp| == OtpLength
  }

  /** Submitting: the outcome of a request is `answer`, consulted only when
      a request is sent. The result is the new form and whether a request
      went out. */
  datatype Submitted = Submitted(form: Form, sent: bool, redirect: Option<string>)

  function SubmitVerify(f: Form, answer: Answer): (r: Submitted)
    ensures r.sent <==> |f.otp| == OtpLength
    ensures !r.form.isLoading
    ensures !r.sent ==> r.form == f.(message := OtpLengthMessage, isError := true, isLoading := false) && r.redirect.None?
    ensures r.sent ==> (r.form.isError <==> answer.Failed?)
    ensures r.sent && answer.Failed? ==> r.form.otp == "" && r.redirect.None?
    ensures r.sent && answer.Failed? ==>
              r.form.message == (if Truthy(answer.message) then answer.message.value else VerificationFailed)
    ensures r.sent && answer.Accepted? ==>
              r.form.otp == f.otp && r.form.message == VerifiedMessage && r.redirect == Some("/login")
  {
    if |f.otp| != OtpLength then
      Submitted(f.(message := OtpLengthMessage, isError := true, isLoading := false), false, None)
    else match answer
      case Accepted => Submitted(f.(message := VerifiedMessage, isError := false, isLoading := false), true, Some("/login"))
      case Failed(m) =>
        Submitted(f.(message := if Truthy(m) then m.value else VerificationFailed, isError := true, isLoading := false, otp := ""),
                  true, None)
  }

  /** The enabled button never submits a code the handler rejects, and a
      rejected code cannot be resubmitted without retyping: the failure
      disables the button. */
  lemma VerifyButtonAgreesWithHandler(f: Form, answer: Answer)
    ensures CanSubmitVerify(f) ==> SubmitVerify(f, answer).sent
    ensures answer.Failed? ==> !CanSubmitVerify(SubmitVerify(f, answer).form)
  {
  }

  // ---- Password reset page ----

  const MismatchMessage := "Passwords do not match"
  const ShortPasswordMessage := "Password must be at least 6 characters long"
  const SpecialCharMessage := "Password must contain at least one special character"
  const ResetDoneMessage := "Password reset successfully! Redirecting to login..."
  const ResetFailed := "Password reset failed"
  const MinPasswordLength: nat := 6
  const SpecialChars := "!@#$%^&*(),.?\":{}|<>"

  datatype ResetForm = ResetForm(otp: string, newPassword: string, confirmPassword: string,
                                 message: string, isError: bool, isLoading: bool)

  function ResetPage(email: Field): (s: Screen)
    ensures s == Navigate("/forgot-password") <==> !Truthy(email)
  {
    if !Truthy(email) then Navigate("/forgot-password") else Show(ResetPasswordPage)
  }

  predicate HasSpecialChar(p: string) {
    exists i :: 0 <= i < |p| && p[i] in SpecialChars
  }

  /** The password policy the form enforces, stated independently of the
      order it is checked in. */
  predicate ResetAcceptable(otp: string, newPassword: string, confirmPassword: string) {
    && |otp| == OtpLength
    && newPassword == confirmPassword
    && |newPassword| >= MinPasswordLength
    && HasSpecialChar(newPassword)
  }

  /** The validation chain: the first failing check's message, or `None`
      when the form may be sent. */
  function ResetCheck(otp: string, newPassword: string, confirmPassword: string): (m: Option<string>)
    ensures m.None? <==> ResetAcceptable(otp, newPassword, confirmPassword)
    ensures m.Some? ==> m.value in {OtpLengthMessage, MismatchMessage, ShortPasswordMessage, SpecialCharMessage}
  {
    if |otp| != OtpLength then Some(OtpLengthMessage)
    else if newPassword != confirmPassword then Some(MismatchMessage)
    else if |newPassword| < MinPasswordLength then Some(ShortPasswordMessage)
    else if !HasSpecialChar(newPassword) then Some(SpecialCharMessage)
    else None
  }

  /** Only the first failure is reported: each message appears exactly when
      every earlier check passed and its own failed. */
  lemma ResetCheckReportsFirstFailure(otp: string, pw: string, confirm: string)
    ensures ResetCheck(otp, pw, confirm) == Some(OtpLengthMessage) <==> |otp| != OtpLength
    ensures ResetCheck(otp, pw, confirm) == Some(MismatchMessage) <==> |otp| == OtpLength && pw != confirm
    ensures ResetCheck(otp, pw, confirm) == Some(ShortPasswordMessage) <==>
              |otp| == OtpLength && pw == confirm && |pw| < MinPasswordLength
    ensures ResetCheck(otp, pw, confirm) == Some(SpecialCharMessage) <==>
              |otp| == OtpLength && pw == confirm && |pw| >= MinPasswordLength && !HasSpecialChar(pw)
  {
  }

  /** The reset button's `disabled` rule, negated. While nothing is loading,
      every form the policy accepts has it enabled, and an enabled button
      never meets the code-length message. */
  predicate CanSubmitReset(f: ResetForm): (enabled: bool)
    ensures !f.isLoading && ResetAcceptable(f.otp, f.newPassword, f.confirmPassword) ==> enabled
    ensures enabled ==> ResetCheck(f.otp, f.newPassword, f.confirmPassword) != Some(OtpLengthMessage)
  {
    !f.isLoading && |f.otp| == OtpLength && f.newPassword != "" && f.confirmPassword != ""
  }

  datatype ResetSubmitted = ResetSubmitted(form: ResetForm, sent: bool, redirect: Option<string>)

  function SubmitReset(f: ResetForm, answer: Answer): (r: ResetSubmitted)
    ensures r.sent <==> ResetAcceptable(f.otp, f.newPassword, f.confirmPassword)
    ensures !r.form.isLoading && r.form.newPassword == f.newPassword && r.form.confirmPassword == f.confirmPassword
    ensures !r.sent ==> r.form.isError && r.form.otp == f.otp && r.redirect.None?
    ensures !r.sent ==>
              r.form == f.(message := ResetCheck(f.otp, f.newPassword, f.confirmPassword).value, isError := true, isLoading := false)
    ensures r.sent ==> (r.form.isError <==> answer.Failed?)
    ensures r.sent && answer.Failed? ==> r.form.otp == "" && r.redirect.None?
    ensures r.sent && answer.Failed? ==> r.form.message == (if Truthy(answer.message) then answer.message.value else ResetFailed)
    ensures r.sent && answer.Accepted? ==> r.form.message == ResetDoneMessage && r.redirect == Some("/login")
  {
    match ResetCheck(f.otp, f.newPassword, f.confirmPassword)
    case Some(m) => ResetSubmitted(f.(message := m, isError := true, isLoading := false), false, None)
    case None =>
      match answer
      case Accepted => ResetSubmitted(f.(message := ResetDoneMessage, isError := false, isLoading := false), true, Some("/login"))
      case Failed(m) =>
        ResetSubmitted(f.(message := if Truthy(m) then m.value else ResetFailed, isError := true, isLoading := false, otp := ""),
                       true, None)
  }

  /** Whatever the handler sends, the button allowed: a form that passes the
      policy has a full code and two non-empty passwords. The converse fails:
      the enabled button still lets mismatched passwords reach the check. */
  lemma ResetPolicyImpliesSubmittable(f: ResetForm)
    requires !f.isLoading
    ensures ResetAcceptable(f.otp, f.newPassword, f.confirmPassword) ==> CanSubmitReset(f)
    ensures var g := ResetForm("123456", "a", "b", "", false, false);
            CanSubmitReset(g) && !SubmitReset(g, Accepted).sent
  {
    var g := ResetForm("123456", "a", "b", "", false, false);
    assert g.newPassword != g.confirmPassword;
  }
}

=== FILE: http.dfy ===
/** Replies the handlers send: an HTTP status and the JSON body's shape. */
module Http {
  import opened Js
  import opened Schema

  /** The subscription summary a login returns. */
  datatype Profile = Profile(id: nat, username: Field, role: Field, subscriptionStatus: string)

  datatype Body =
    | Message(message: string)                          // { message }
    | Error(error: string)                              // { error }
    | Success(message: string)                          // { success: true, message }
    | OtpSent(message: string, email: string, username: string, password: string)
    | LoggedIn(token: Token, user: Profile)             // { token, user }
    | CreatedId(message: string, id: nat)               // { message, id }
    | SignalList(signals: seq<Signal>)                  // [ ...rows ]
    | UserList(users: seq<User>)                        // [ ...rows ]
    | Answer(answer: JsValue)                           // { success: true, answer }

  datatype Reply = Reply(status: nat, body: Body)

  const Ok := 200
  const CreatedStatus := 201
  const BadRequest := 400
  const Unauthorized := 401
  const Forbidden := 403
  const NotFound := 404
  const Conflict := 409
  const ServerError := 500
}

=== FILE: js.dfy ===
/** The JavaScript values the handlers inspect.

    A request-body field is either absent (`undefined`) or a string, the
    `Field` type. A reply from the language-model service is an arbitrary
    JSON-like value, `JsValue`, read with JavaScript's property-access and
    truthiness rules. */
module Js {
  import opened Wrappers
  import Text

  /** A request-body field: `None` is `undefined`. */
  type Field = Option<string>

  /** JavaScript truthiness of a field: absent and empty are falsy. */
  predicate Truthy(f: Field) {
    f.Some? && f.value != ""
  }

  /** SQL's `column = ?` with the field bound as the parameter: an absent
      field binds NULL, and NULL equals nothing. */
  predicate SqlEq(param: Field, column: Field) {
    param.Some? && param == column
  }

  /** A template literal `${f}`: an absent field renders as "undefined". */
  function Render(f: Field): (s: string)
    ensures f.Some? ==> s == f.value
    ensures f.None? ==> s == "undefined"
  {
    f.GetOr("undefined")
  }

  /** A JSON-like JavaScript value. Numbers are integers: the model never
      needs NaN or fractions of a reply's numbers. */
  datatype JsValue =
    | Undefined
    | Null
    | Bool(b: bool)
    | Num(n: int)
    | Str(s: string)
    | Arr(items: seq<JsValue>)
    | Obj(props: map<string, JsValue>)

  predicate IsTruthy(v: JsValue) {
    match v
    case Undefined => false
    case Null => false
    case Bool(b) => b
    case Num(n) => n != 0
    case Str(s) => s != ""
    case Arr(_) => true
    case Obj(_) => true
  }

  predicate IsNullish(v: JsValue) {
    v.Undefined? || v.Null?
  }

  /** `v.key`: a TypeError (`None`) on null or undefined; `undefined` for a
      missing property or a primitive without it. */
  function Get(v: JsValue, key: string): (r: Option<JsValue>)
    ensures r.None? <==> IsNullish(v)
    ensures v.Obj? && key in v.props ==> r == Some(v.props[key])
  {
    match v
    case Undefined => None
    case Null => None
    case Obj(props) => Some(if key in props then props[key] else Undefined)
    case _ => Some(Undefined)
  }

  /** `v?.key`: short-circuits to `undefined` on null or undefined. */
  function OptGet(v: JsValue, key: string): (r: JsValue)
    ensures IsNullish(v) ==> r == Undefined
    ensures !IsNullish(v) ==> Some(r) == Get(v, key)
  {
    if IsNullish(v) then Undefined else Get(v, key).value
  }

  /** `v?.[i]`: array element, string character or the object property
      named by the index's decimal form; `undefined` otherwise. */
  function OptAt(v: JsValue, i: nat): (r: JsValue)
    ensures v.Arr? && i < |v.items| ==> r == v.items[i]
    ensures v.Obj? ==> r == OptGet(v, Text.NatToString(i))
    ensures !v.Arr? && !v.Str? && !v.Obj? ==> r == Undefined
  {
    match v
    case Arr(items) => if i < |items| then items[i] else Undefined
    case Str(s) => if i < |s| then Str([s[i]]) else Undefined
    case Obj(_) => OptGet(v, Text.NatToString(i))
    case _ => Undefined
  }
}

=== FILE: otp.dfy ===
/** The in-process one-time-password store: a map from email to the live
    code, its expiry instant and the number of failed attempts.

    Time (`Date.now()`), randomness (`Math.random()`) and the email provider
    are parameters: `now` in milliseconds, the random draw as a fraction
    `num / den`, and the provider's verdict as a `Dispatch`. */
module Otp {
  import opened Wrappers
  import opened Js
  import Text

  /** Codes live for ten minutes. */
  const LifetimeMs: int := 10 * 60 * 1000
  /** The reply to a successful send reports the lifetime in seconds. */
  const ExpiresInSeconds: nat := 600
  /** A code is destroyed once this many wrong guesses have been made. */
  const MaxAttempts: nat := 3

  const NotFoundMessage := "No OTP found for this email"
  const ExpiredMessage := "OTP has expired. Request a new one."
  const ExhaustedMessage := "Maximum OTP attempts exceeded. Request a new one."
  const VerifiedMessage := "Email verified successfully"
  const SentMessage := "OTP sent to your email"
  /** What `undefined.toString()` throws when no code was submitted. */
  const UndefinedCodeError := "Cannot read properties of undefined (reading 'toString')"

  function MismatchMessage(remaining: nat): (m: string)
    ensures Text.StartsWith(m, "Invalid OTP. ")
  {
    "Invalid OTP. " + Text.NatToString(remaining) + " attempts remaining."
  }

  datatype Record = Record(code: string, expiresAt: int, attempts: nat)

  /** Keyed by the email field as received; an absent email is a key too. */
  type Store = map<Field, Record>

  /** The result object of a verification, or the TypeError it throws. */
  datatype Check = Verified(message: string) | Rejected(message: string) | Threw(error: string)

  datatype Verification = Verification(check: Check, store: Store)

  /** What the email provider did with the request. */
  datatype Dispatch = Delivered | DispatchFailed(error: string)

  datatype SendOutcome = SendOk(message: string, expiresIn: nat) | SendThrew(error: string)

  datatype Sending = Sending(outcome: SendOutcome, store: Store)

  /** `Math.floor(100000 + Math.random() * 900000).toString()` with the
      random draw given as the fraction `num / den` in [0, 1). */
  function Generate(num: nat, den: nat): (code: string)
    requires num < den
    ensures |code| == 6 && Text.AllDigits(code)
    ensures 100000 <= Text.ParseDigits(code) <= 999999
  {
    var scaled := num * 900000 / den;
    assert scaled < 900000 by {
      assert num * 900000 < den * 900000;
    }
    var n := 100000 + scaled;
    assert Text.Pow10(5) == 100000 && Text.Pow10(6) == 1000000;
    Text.NatToStringLength(n, 5);
    Text.ParseNatToString(n);
    Text.NatToString(n)
  }

  /** Stores a fresh record for `email`, replacing any earlier one. */
  function Issue(store: Store, email: Field, code: string, now: int): (s: Store)
    ensures email in s && s[email] == Record(code, now + LifetimeMs, 0)
    ensures s.Keys == store.Keys + {email}
    ensures forall e :: e in store && e != email ==> s[e] == store[e]
  {
    store[email := Record(code, now + LifetimeMs, 0)]
  }

  /** `sendOTP`: the record is stored first, then the email is dispatched; a
      failed dispatch is rethrown but the stored code stays. */
  function Send(store: Store, email: Field, code: string, now: int, dispatch: Dispatch): (r: Sending)
    ensures r.store == Issue(store, email, code, now)
    ensures r.outcome.SendOk? <==> dispatch.Delivered?
    ensures r.outcome.SendOk? ==> r.outcome.expiresIn * 1000 == LifetimeMs
    ensures dispatch.DispatchFailed? ==> r.outcome == SendThrew(dispatch.error)
  {
    var stored := Issue(store, email, code, now);
    match dispatch
    case Delivered => Sending(SendOk(SentMessage, ExpiresInSeconds), stored)
    case DispatchFailed(e) => Sending(SendThrew(e), stored)
  }

  /** A record still accepts a guess: not past its expiry (the comparison is
      strict, so the expiry instant itself is still live) and fewer than
      three failed attempts. */
  predicate Live(r: Record, now: int) {
    now <= r.expiresAt && r.attempts < MaxAttempts
  }

  /** `verifyOTP`: absent, then expired, then exhausted, then compared. */
  function Verify(store: Store, email: Field, submitted: Field, now: int): (r: Verification)
    ensures r.store.Keys <= store.Keys
    ensures forall e :: e in store && e != email ==> e in r.store && r.store[e] == store[e]
    ensures r.check.Verified? <==>
              email in store && Live(store[email], now) && submitted == Some(store[email].code)
    ensures r.check.Verified? ==> r.check.message == VerifiedMessage && email !in r.store
    ensures r.check.Threw? <==> email in store && Live(store[email], now) && submitted.None?
    ensures r.check.Threw? ==> r.store == store
    ensures email !in store ==> r == Verification(Rejected(NotFoundMessage), store)
    ensures email in store && now > store[email].expiresAt ==>
              r == Verification(Rejected(ExpiredMessage), store - {email})
    ensures email in store && now <= store[email].expiresAt && store[email].attempts >= MaxAttempts ==>
              r == Verification(Rejected(ExhaustedMessage), store - {email})
  {
    if email !in store then Verification(Rejected(NotFoundMessage), store)
    else
      var rec := store[email];
      if now > rec.expiresAt then Verification(Rejected(ExpiredMessage), store - {email})
      else if rec.attempts >= MaxAttempts then Verification(Rejected(ExhaustedMessage), store - {email})
      else if submitted.None? then Verification(Threw(UndefinedCodeError), store)
      else if rec.code != submitted.value then
        var attempts := rec.attempts + 1;
        Verification(Rejected(MismatchMessage(MaxAttempts - attempts)), store[email := rec.(attempts := attempts)])
      else Verification(Verified(VerifiedMessage), store - {email})
  }

  /** `clearOTP`: removes exactly the record for `email`. */
  function Clear(store: Store, email: Field): (s: Store)
    ensures email !in s
    ensures s.Keys == store.Keys - {email}
    ensures forall e :: e in s ==> s[e] == store[e]
  {
    store - {email}
  }

  /** A wrong guess on a live code costs exactly one attempt, keeps the code
      and its expiry, and reports how many attempts remain. */
  lemma MismatchCostsOneAttempt(store: Store, email: Field, guess: string, now: int)
    requires email in store && Live(store[email], now) && guess != store[email].code
    ensures var r := Verify(store, email, Some(guess), now);
            var rec := store[email];
            && email in r.store
            && r.store[email] == rec.(attempts := rec.attempts + 1)
            && r.check == Rejected(MismatchMessage(MaxAttempts - (rec.attempts + 1)))
  {
  }

  /** A code just issued at `issuedAt` is accepted exactly up to and including
      its expiry instant. */
  lemma IssuedCodeAcceptedUntilExpiry(store: Store, email: Field, code: string, issuedAt: int, now: int)
    ensures Verify(Issue(store, email, code, issuedAt), email, Some(code), now).check.Verified?
            <==> now <= issuedAt + LifetimeMs
  {
  }

  /** A successful verification consumes the code: the same submission again
      finds nothing. */
  lemma VerifiedCodeIsConsumed(store: Store, email: Field, submitted: Field, now: int, later: int)
    requires Verify(store, email, submitted, now).check.Verified?
    ensures var s := Verify(store, email, submitted, now).store;
            Verify(s, email, submitted, later) == Verification(Rejected(NotFoundMessage), s)
  {
  }

  /** Running a series of submissions, each with its own clock reading. */
  function Replay(store: Store, email: Field, tries: seq<(Field, int)>): (checks: seq<Check>)
    ensures |checks| == |tries|
  {
    if |tries| == 0 then []
    else
      var v := Verify(store, email, tries[0].0, tries[0].1);
      [v.check] + Replay(v.store, email, tries[1..])
  }

  /** Once the record is gone, every later submission finds nothing. */
  lemma {:induction false} AbsentStaysAbsent(store: Store, email: Field, tries: seq<(Field, int)>)
    requires email !in store
    ensures forall i :: 0 <= i < |tries| ==> Replay(store, email, tries)[i] == Rejected(NotFoundMessage)
  {
    if |tries| > 0 {
      AbsentStaysAbsent(store, email, tries[1..]);
    }
  }

  /** The guessing bound: if none of the next (3 - attempts) submissions is
      the stored code, no submission in the whole series is accepted, not
      even a later correct one. */
  lemma {:induction false} WrongGuessesLockOut(store: Store, email: Field, tries: seq<(Field, int)>)
    requires email in store
    requires forall i :: 0 <= i < |tries| && i + store[email].attempts < MaxAttempts ==>
               tries[i].0.Some? && tries[i].0.value != store[email].code
    ensures forall i :: 0 <= i < |tries| ==> !Replay(store, email, tries)[i].Verified?
  {
    if |tries| > 0 {
      var rec := store[email];
      var v := Verify(store, email, tries[0].0, tries[0].1);
      var checks := Replay(store, email, tries);
      assert checks == [v.check] + Replay(v.store, email, tries[1..]);
      if email in v.store {
        assert v.store[email] == rec.(attempts := rec.attempts + 1);
        forall i | 0 <= i < |tries[1..]| && i + v.store[email].attempts < MaxAttempts
          ensures tries[1..][i].0.Some? && tries[1..][i].0.value != v.store[email].code
        {
          assert tries[1..][i] == tries[i + 1];
        }
        WrongGuessesLockOut(v.store, email, tries[1..]);
      } else {
        AbsentStaysAbsent(v.store, email, tries[1..]);
      }
    }
  }

  /** The attempt counter never exceeds the limit. */
  predicate AttemptsBounded(store: Store) {
    forall e :: e in store ==> store[e].attempts <= MaxAttempts
  }

  lemma OperationsKeepAttemptsBounded(store: Store, email: Field, code: string, submitted: Field, now: int)
    requires AttemptsBounded(store)
    ensures AttemptsBounded(Issue(store, email, code, now))
    ensures AttemptsBounded(Verify(store, email, submitted, now).store)
    ensures AttemptsBounded(Clear(store, email))
  {
  }
}

=== FILE: routes.dfy ===
/** The route tables of the three backend routers, as data, and the
    execution of a middleware chain. The authentication middleware the
    routers mount (`Middleware/Authmiddleware.js`) is not part of this
    model: its verdict for the request is the parameter `auth`. The role
    middleware is `Access.RequireRole`. */
module Routes {
  import opened Wrappers
  import opened Schema
  import opened Http
  import Access

  datatype Verb = Get | Post | Put | Delete

  /** A path pattern segment: literal text or a `:name` parameter. */
  datatype Segment = Lit(text: string) | Param(name: string)

  datatype Handler =
    | GetAllSignals | CreateSignal | ApproveSignal | UpdateSignal | DeleteSignal
    | GetAllUsers | GetProfile | UpdateSubscription | UpdateUserRole | BroadcastSignal

  datatype Step = Authenticate | RequireRole(role: string) | Invoke(handler: Handler)

  datatype Route = Route(verb: Verb, pattern: seq<Segment>, chain: seq<Step>)

  /** `guards` are the router-wide `router.use(...)` middlewares, run for
      every request that enters the router, before its routes. */
  datatype Router = Router(guards: seq<Step>, routes: seq<Route>)

  const Admin := "admin"

  /** `routes/SignalRoutes.js`. */
  const SignalRouter := Router([], [
    Route(Get, [], [Authenticate, Invoke(GetAllSignals)]),
    Route(Post, [Lit("create")], [Authenticate, RequireRole(Admin), Invoke(CreateSignal)]),
    Route(Put, [Lit("approve"), Param("id")], [Authenticate, RequireRole(Admin), Invoke(ApproveSignal)]),
    Route(Put, [Lit("update"), Param("id")], [Authenticate, RequireRole(Admin), Invoke(UpdateSignal)]),
    Route(Delete, [Lit("delete"), Param("id")], [Authenticate, RequireRole(Admin), Invoke(DeleteSignal)])
  ])

  /** `routes/adminRoutes.js`: authentication, then the admin role, for the
      whole router. */
  const AdminRouter := Router([Authenticate, RequireRole(Admin)], [
    Route(Get, [Lit("users")], [Invoke(GetAllUsers)]),
    Route(Put, [Lit("users"), Lit("status")], [Invoke(UpdateSubscription)]),
    Route(Put, [Lit("users"), Lit("role")], [Invoke(UpdateUserRole)]),
    Route(Post, [Lit("broadcast")], [Invoke(BroadcastSignal)])
  ])

  /** `routes/UserRoutes.js`. */
  const UserRouter := Router([], [
    Route(Get, [], [Authenticate, RequireRole(Admin), Invoke(GetAllUsers)]),
    Route(Get, [Lit("me")], [Authenticate, Invoke(GetProfile)]),
    Route(Put, [Lit("subscription")], [Authenticate, RequireRole(Admin), Invoke(UpdateSubscription)])
  ])

  /** A path (split into segments) matches a pattern segment by segment; a
      parameter matches any non-empty segment. */
  predicate Matches(pattern: seq<Segment>, path: seq<string>) {
    |pattern| == |path| &&
    forall i :: 0 <= i < |path| ==>
      match pattern[i]
      case Lit(text) => path[i] == text
      case Param(_) => path[i] != ""
  }

  /** The position of the first route of the table for this verb and path. */
  function FindRoute(routes: seq<Route>, verb: Verb, path: seq<string>): (r: Option<nat>)
    ensures r.Some? ==> r.value < |routes| && Handles(routes[r.value], verb, path)
    ensures r.Some? ==> forall k :: 0 <= k < r.value ==> !Handles(routes[k], verb, path)
    ensures r.None? ==> forall k :: 0 <= k < |routes| ==> !Handles(routes[k], verb, path)
  {
    if |routes| == 0 then None
    else if Handles(routes[0], verb, path) then Some(0)
    else
      match FindRoute(routes[1..], verb, path)
      case None => None
      case Some(k) => Some(k + 1)
  }

  /** The first matching route is the one found. */
  lemma FindRouteFirst(routes: seq<Route>, verb: Verb, path: seq<string>, k: nat)
    requires k < |routes| && Handles(routes[k], verb, path)
    requires forall j :: 0 <= j < k ==> !Handles(routes[j], verb, path)
    ensures FindRoute(routes, verb, path) == Some(k)
  {
  }

  /** Where a request ends: in a handler (with the `req.user` it sees), in a
      middleware's reply, or past the router (no route matched). */
  datatype Result = Reached(handler: Handler, user: Option<Claims>) | Stopped(reply: Reply) | Unrouted

  /** Runs middlewares in order; each either calls `next` or replies. A
      request reaches only a handler of the chain, with the `req.user` it
      came in with or the one authentication decoded; it is stopped only by
      the authentication's own reply or a 403 role denial; and it falls
      through only a chain without a handler. */
  function Run(steps: seq<Step>, auth: Access.Gate, user: Option<Claims>): (r: Result)
    ensures r.Reached? ==> Invoke(r.handler) in steps
    ensures r.Reached? ==> r.user == user || (auth.Pass? && r.user == Some(auth.user))
    ensures r.Stopped? ==> (auth.Deny? && r.reply == auth.reply) || r.reply.status == Forbidden
    ensures r.Unrouted? ==> forall k :: 0 <= k < |steps| ==> !steps[k].Invoke?
  {
    if |steps| == 0 then Unrouted
    else
      match steps[0]
      case Invoke(h) => Reached(h, user)
      case Authenticate =>
        (match auth
         case Pass(c) => Run(steps[1..], auth, Some(c))
         case Deny(reply) => Stopped(reply))
      case RequireRole(role) =>
        (match Access.RequireRole(role, user)
         case Pass(c) => Run(steps[1..], auth, Some(c))
         case Deny(reply) => Stopped(reply))
  }

  /** A route serves a request with this verb and path. */
  predicate Handles(route: Route, verb: Verb, path: seq<string>) {
    route.verb == verb && Matches(route.pattern, path)
  }

  /** The middlewares a request to this router runs through: the router-wide
      guards, then the chain of the first route that serves it, if any. */
  function ChainFor(router: Router, verb: Verb, path: seq<string>): (chain: seq<Step>)
    ensures forall k {:trigger Handles(router.routes[k], verb, path)} :: 0 <= k < |router.routes| && Handles(router.routes[k], verb, path) &&
                        (forall j :: 0 <= j < k ==> !Handles(router.routes[j], verb, path))
                        ==> chain == router.guards + router.routes[k].chain
    ensures (forall k :: 0 <= k < |router.routes| ==> !Handles(router.routes[k], verb, path)) ==> chain == router.guards
  {
    match FindRoute(router.routes, verb, path)
    case Some(k) => router.guards + router.routes[k].chain
    case None => router.guards
  }

  /** A request entering the router with no `req.user` yet: a handler it
      reaches belongs to its chain and sees no user or the authenticated
      one; a router with no guards lets a request no route serves fall
      through. */
  function Dispatch(router: Router, verb: Verb, path: seq<string>, auth: Access.Gate): (r: Result)
    ensures r.Reached? ==> Invoke(r.handler) in ChainFor(router, verb, path)
    ensures r.Reached? ==> r.user.None? || (auth.Pass? && r.user == Some(auth.user))
    ensures r.Stopped? ==> (auth.Deny? && r.reply == auth.reply) || r.reply.status == Forbidden
    ensures router.guards == [] && (forall k :: 0 <= k < |router.routes| ==> !Handles(router.routes[k], verb, path)) ==>
              r == Unrouted
  {
    Run(ChainFor(router, verb, path), auth, None)
  }

  /** Handlers only an admin may reach. */
  predicate AdminOnly(h: Handler) {
    h != GetAllSignals && h != GetProfile
  }

  /** The two chain shapes the routers use: authentication alone before a
      read handler, or authentication then the admin role before any other. */
  predicate WellGuarded(chain: seq<Step>) {
    || (|chain| == 2 && chain[0] == Authenticate && chain[1].Invoke? && !AdminOnly(chain[1].handler))
    || (|chain| == 3 && chain[0] == Authenticate && chain[1] == RequireRole(Admin) && chain[2].Invoke?)
  }

  /** No router-wide guard is a handler, and every route's full chain is
      well guarded. */
  predicate RouterWellGuarded(router: Router) {
    && (forall k :: 0 <= k < |router.guards| ==> !router.guards[k].Invoke?)
    && forall k :: 0 <= k < |router.routes| ==> WellGuarded(router.guards + router.routes[k].chain)
  }

  /** A chain without a handler never reaches one. */
  lemma {:induction false} NoHandlerNoReach(steps: seq<Step>, auth: Access.Gate, user: Option<Claims>)
    requires forall k :: 0 <= k < |steps| ==> !steps[k].Invoke?
    ensures !Run(steps, auth, user).Reached?
  {
    if |steps| > 0 {
      assert forall k :: 0 <= k < |steps[1..]| ==> steps[1..][k] == steps[k + 1];
      if steps[0].Authenticate? && auth.Pass? {
        NoHandlerNoReach(steps[1..], auth, Some(auth.user));
      } else if steps[0].RequireRole? {
        var g := Access.RequireRole(steps[0].role, user);
        if g.Pass? {
          NoHandlerNoReach(steps[1..], auth, Some(g.user));
        }
      }
    }
  }

  /** What a well-guarded chain lets through: a handler is reached only with
      a passed authentication, whose user is the handler's `req.user`, and an
      admin-only handler only when that user's role is exactly "admin". */
  lemma WellGuardedRun(chain: seq<Step>, auth: Access.Gate)
    requires WellGuarded(chain)
    ensures var r := Run(chain, auth, None);
            && (r.Reached? <==> auth.Pass? && (|chain| == 2 || auth.user.role == Some(Admin)))
            && (r.Reached? ==> r.handler == chain[|chain| - 1].handler && r.user == Some(auth.user))
            && (auth.Deny? ==> r == Stopped(auth.reply))
  {
    if auth.Pass? {
      var rest := chain[1..];
      assert rest[0] == chain[1];
      if |chain| == 3 {
        var g := Access.RequireRole(Admin, Some(auth.user));
        if g.Pass? {
          assert rest[1..][0] == chain[2];
          assert Run(chain, auth, None) == Run(rest, auth, Some(auth.user));
          assert Run(rest, auth, Some(auth.user)) == Run(rest[1..], auth, Some(g.user));
        }
      }
    }
  }

  /** The access-control guarantee of a well-guarded router: no handler runs
      for a caller the authentication middleware rejected, and no admin-only
      handler runs for a caller whose role is not "admin". */
  lemma {:induction false} GuardedDispatch(router: Router, verb: Verb, path: seq<string>, auth: Access.Gate)
    requires RouterWellGuarded(router)
    ensures var r := Dispatch(router, verb, path, auth);
            && (r.Reached? ==> auth.Pass? && r.user == Some(auth.user))
            && (r.Reached? && AdminOnly(r.handler) ==> auth.user.role == Some(Admin))
  {
    match FindRoute(router.routes, verb, path)
    case None =>
      NoHandlerNoReach(router.guards, auth, None);
    case Some(k) =>
      WellGuardedRun(router.guards + router.routes[k].chain, auth);
  }

  /** The three routers are well guarded. */
  lemma RoutersWellGuarded()
    ensures RouterWellGuarded(SignalRouter)
    ensures RouterWellGuarded(AdminRouter)
    ensures RouterWellGuarded(UserRouter)
  {
  }

  /** Every admin-only handler reachable through any of the routers requires
      an authenticated admin. */
  lemma MutationsRequireAdmin(verb: Verb, path: seq<string>, auth: Access.Gate)
    ensures forall router :: router in {SignalRouter, AdminRouter, UserRouter} ==>
              var r := Dispatch(router, verb, path, auth);
              r.Reached? ==> auth.Pass? && (AdminOnly(r.handler) ==> auth.user.role == Some(Admin))
  {
    RoutersWellGuarded();
    GuardedDispatch(SignalRouter, verb, path, auth);
    GuardedDispatch(AdminRouter, verb, path, auth);
    GuardedDispatch(UserRouter, verb, path, auth);
  }

  /** The signal router's table, entry by entry. */
  lemma SignalRouteTable(id: string)
    requires id != ""
    ensures ChainFor(SignalRouter, Get, []) == [Authenticate, Invoke(GetAllSignals)]
    ensures ChainFor(SignalRouter, Post, ["create"]) == [Authenticate, RequireRole(Admin), Invoke(CreateSignal)]
    ensures ChainFor(SignalRouter, Put, ["approve", id]) == [Authenticate, RequireRole(Admin), Invoke(ApproveSignal)]
    ensures ChainFor(SignalRouter, Put, ["update", id]) == [Authenticate, RequireRole(Admin), Invoke(UpdateSignal)]
    ensures ChainFor(SignalRouter, Delete, ["delete", id]) == [Authenticate, RequireRole(Admin), Invoke(DeleteSignal)]
  {
    SignalIdRoutes(id);
    FindRouteFirst(SignalRouter.routes, Get, [], 0);
    FindRouteFirst(SignalRouter.routes, Post, ["create"], 1);
  }

  /** The three signal routes that take an id. */
  lemma SignalIdRoutes(id: string)
    requires id != ""
    ensures ChainFor(SignalRouter, Put, ["approve", id]) == [Authenticate, RequireRole(Admin), Invoke(ApproveSignal)]
    ensures ChainFor(SignalRouter, Put, ["update", id]) == [Authenticate, RequireRole(Admin), Invoke(UpdateSignal)]
    ensures ChainFor(SignalRouter, Delete, ["delete", id]) == [Authenticate, RequireRole(Admin), Invoke(DeleteSignal)]
  {
    FindRouteFirst(SignalRouter.routes, Put, ["approve", id], 2);
    assert ["update", id][0] == "update" != "approve";
    FindRouteFirst(SignalRouter.routes, Put, ["update", id], 3);
    FindRouteFirst(SignalRouter.routes, Delete, ["delete", id], 4);
  }

  /** The admin router's table: every entry behind the router-wide guards. */
  lemma AdminRouteTable()
    ensures ChainFor(AdminRouter, Get, ["users"]) == [Authenticate, RequireRole(Admin), Invoke(GetAllUsers)]
    ensures ChainFor(AdminRouter, Put, ["users", "status"]) == [Authenticate, RequireRole(Admin), Invoke(UpdateSubscription)]
    ensures ChainFor(AdminRouter, Put, ["users", "role"]) == [Authenticate, RequireRole(Admin), Invoke(UpdateUserRole)]
    ensures ChainFor(AdminRouter, Post, ["broadcast"]) == [Authenticate, RequireRole(Admin), Invoke(BroadcastSignal)]
  {
    AdminUpdateRoutes();
    FindRouteFirst(AdminRouter.routes, Get, ["users"], 0);
    FindRouteFirst(AdminRouter.routes, Post, ["broadcast"], 3);
  }

  /** The two admin update routes, which share the `users` prefix. */
  lemma AdminUpdateRoutes()
    ensures ChainFor(AdminRouter, Put, ["users", "status"]) == [Authenticate, RequireRole(Admin), Invoke(UpdateSubscription)]
    ensures ChainFor(AdminRouter, Put, ["users", "role"]) == [Authenticate, RequireRole(Admin), Invoke(UpdateUserRole)]
  {
    FindRouteFirst(AdminRouter.routes, Put, ["users", "status"], 1);
    assert ["users", "role"][1] == "role" != "status";
    FindRouteFirst(AdminRouter.routes, Put, ["users", "role"], 2);
  }

  /** The user router's table. */
  lemma UserRouteTable()
    ensures ChainFor(UserRouter, Get, []) == [Authenticate, RequireRole(Admin), Invoke(GetAllUsers)]
    ensures ChainFor(UserRouter, Get, ["me"]) == [Authenticate, Invoke(GetProfile)]
    ensures ChainFor(UserRouter, Put, ["subscription"]) == [Authenticate, RequireRole(Admin), Invoke(UpdateSubscription)]
  {
    FindRouteFirst(UserRouter.routes, Get, [], 0);
    FindRouteFirst(UserRouter.routes, Get, ["me"], 1);
    FindRouteFirst(UserRouter.routes, Put, ["subscription"], 2);
  }
}

=== FILE: schema.dfy ===
/** The rows of the relational store the controllers query, as immutable
    values. Columns the source may leave NULL are `Field`s. */
module Schema {
  import opened Wrappers
  import opened Js
  import Text

  /** The decoded session-token payload: exactly the user's id and role. */
  datatype Claims = Claims(id: nat, role: Field)

  /** An abstract session token: the claims it carries and its lifetime, as
      handed to the signing library (whose signature is not modelled). */
  datatype Token = Token(claims: Claims, expiresIn: string)

  /** The subscription expiry column as written by the admin controller:
      a date, or JavaScript's "Invalid Date" when the day count is NaN. */
  datatype Expiry = InvalidDate | At(ms: int)

  /** A row of `users`. The `subscription_status`/`subscription_expiry`
      columns are the admin controller's subscription representation. */
  datatype User = User(
    id: nat,
    username: Field,
    email: Field,
    password: string,
    role: Field,
    subscriptionStatus: Field,
    subscriptionExpiry: Option<Expiry>)

  /** A row of `subscriptions`: the authentication controller's subscription
      representation, separate from the columns on `users`. */
  datatype SubscriptionRow = SubscriptionRow(userId: nat, status: string)

  /** The account tables with their auto-increment counter. */
  datatype Db = Db(users: seq<User>, subscriptions: seq<SubscriptionRow>, nextUserId: nat)

  /** A row of `signals`. The table has both a `direction` column, written
      by the signal controller, and a `type` column (`kind` here), written by
      the admin broadcast; `None` stands for a column the insert leaves at its
      schema default. */
  datatype Signal = Signal(
    id: nat,
    pair: Field,
    direction: Field,
    kind: Field,
    entryPrice: Field,
    stopLoss: Field,
    takeProfit: Field,
    notes: Field,
    isApproved: bool,
    createdAt: int,
    createdBy: Option<nat>)

  /** The signal table with its auto-increment counter. */
  datatype SignalTable = SignalTable(rows: seq<Signal>, nextId: nat)

  /** A route or body id parameter names row `id` when it is that id's
      decimal text. */
  predicate Names(param: Field, id: nat) {
    param == Some(Text.NatToString(id))
  }

  /** A parameter names at most one id. */
  lemma NamesUnique(param: Field, a: nat, b: nat)
    requires Names(param, a) && Names(param, b)
    ensures a == b
  {
    Text.NatToStringInjective(a, b);
  }

  /** The auto-increment counter is above every id in use. */
  predicate FreshUserIds(db: Db) {
    forall i :: 0 <= i < |db.users| ==> db.users[i].id < db.nextUserId
  }

  predicate FreshSignalIds(t: SignalTable) {
    forall i :: 0 <= i < |t.rows| ==> t.rows[i].id < t.nextId
  }
}

=== FILE: signals.dfy ===
/** The signal controller: create, approve, list, update and delete over the
    signal table. `isNaN` (JavaScript's global `isNaN` with its coercions)
    is an oracle over the raw field; `now` is the server timestamp the
    table's `created_at` default records. */
module Signals {
  import opened Wrappers
  import opened Js
  import opened Schema
  import opened Http
  import Text

  const Disclaimer := "This is not financial advice. Trade at your own risk."
  const MaxPairLength := 10
  const PricesMessage := "Prices must be valid numbers."
  const PairMessage := "Pair name is too long (e.g., BTC/USD)."
  /** What `undefined.length` throws when the body has no pair. */
  const PairUndefinedError := "Cannot read properties of undefined (reading 'length')"
  /** What reading a `const` before its declaration throws in `updateSignal`. */
  const UseBeforeDeclarationError := "Cannot access 'entry_price' before initialization"

  datatype Outcome = Outcome(reply: Reply, table: SignalTable)

  /** The shared checks of create and update, in the source's order: prices
      first (entry and stop only; take-profit is not checked), then the
      pair's length. `None` means the checks pass. */
  function Validate(pair: Field, entry: Field, stop: Field, isNaN: Field -> bool): (r: Option<Reply>)
    ensures r.None? <==> !isNaN(entry) && !isNaN(stop) && pair.Some? && |pair.value| <= MaxPairLength
    ensures r.Some? && r.value.status == BadRequest <==>
              isNaN(entry) || isNaN(stop) || (pair.Some? && |pair.value| > MaxPairLength)
    ensures r.Some? && r.value.status != BadRequest ==> r.value == Reply(ServerError, Error(PairUndefinedError))
  {
    if isNaN(entry) || isNaN(stop) then Some(Reply(BadRequest, Message(PricesMessage)))
    else if pair.None? then Some(Reply(ServerError, Error(PairUndefinedError)))
    else if |pair.value| > MaxPairLength then Some(Reply(BadRequest, Message(PairMessage)))
    else None
  }

  /** `createSignal`: a valid request inserts an unapproved row carrying the
      disclaimer and answers 201 with the new id. */
  function Create(t: SignalTable, pair: Field, direction: Field, entry: Field, stop: Field, take: Field,
                  now: int, isNaN: Field -> bool): (r: Outcome)
    ensures r.reply.status == CreatedStatus <==> Validate(pair, entry, stop, isNaN).None?
    ensures r.reply.status != CreatedStatus ==> r.table == t
    ensures r.reply.status == CreatedStatus ==>
              && r.table.nextId == t.nextId + 1
              && |r.table.rows| == |t.rows| + 1
              && r.table.rows[..|t.rows|] == t.rows
              && var row := r.table.rows[|t.rows|];
                 && row.id == t.nextId
                 && !row.isApproved
                 && row.notes == Some(Disclaimer)
                 && row.kind == None
                 && row.createdAt == now
                 && (row.pair, row.direction, row.entryPrice, row.stopLoss, row.takeProfit) == (pair, direction, entry, stop, take)
                 && r.reply.body.CreatedId? && r.reply.body.id == row.id
  {
    match Validate(pair, entry, stop, isNaN)
    case Some(reply) => Outcome(reply, t)
    case None =>
      var row := Signal(t.nextId, pair, direction, None, entry, stop, take, Some(Disclaimer), false, now, None);
      Outcome(Reply(CreatedStatus, CreatedId("Signal created successfully. Awaiting Admin Approval.", row.id)),
              SignalTable(t.rows + [row], t.nextId + 1))
  }

  /** Some row has the id the parameter names. */
  predicate AnyNamed(rows: seq<Signal>, id: Field) {
    exists i :: 0 <= i < |rows| && Names(id, rows[i].id)
  }

  /** `UPDATE signals SET is_approved = 1 WHERE id = ?`. */
  function MarkApproved(rows: seq<Signal>, id: Field): (r: seq<Signal>)
    ensures |r| == |rows|
    ensures forall i :: 0 <= i < |rows| ==>
              r[i] == if Names(id, rows[i].id) then rows[i].(isApproved := true) else rows[i]
  {
    if |rows| == 0 then []
    else [if Names(id, rows[0].id) then rows[0].(isApproved := true) else rows[0]] + MarkApproved(rows[1..], id)
  }

  /** `approveSignal`: 400 without an id, 404 when no row has it, otherwise
      the row is marked approved. Approval only ever sets the flag. */
  function Approve(t: SignalTable, id: Field): (r: Outcome)
    ensures r.reply.status == BadRequest <==> !Truthy(id)
    ensures r.reply.status == NotFound <==> Truthy(id) && !AnyNamed(t.rows, id)
    ensures r.reply.status == Ok <==> Truthy(id) && AnyNamed(t.rows, id)
    ensures r.reply.status != Ok ==> r.table == t
    ensures r.table.nextId == t.nextId && |r.table.rows| == |t.rows|
    ensures forall i :: 0 <= i < |t.rows| ==>
              r.table.rows[i] == if Names(id, t.rows[i].id) then t.rows[i].(isApproved := true) else t.rows[i]
  {
    if !Truthy(id) then Outcome(Reply(BadRequest, Message("Signal ID is required.")), t)
    else if !AnyNamed(t.rows, id) then
      assert forall i :: 0 <= i < |t.rows| ==> !Names(id, t.rows[i].id);
      Outcome(Reply(NotFound, Message("Signal not found.")), t)
    else Outcome(Reply(Ok, Success("Signal approved successfully!")), t.(rows := MarkApproved(t.rows, id)))
  }

  /** Newest first: `ORDER BY created_at DESC`. */
  predicate NewestFirst(s: seq<Signal>) {
    forall i, j :: 0 <= i < j < |s| ==> s[i].createdAt >= s[j].createdAt
  }

  /** Inserts `x` into a newest-first sequence before the first row that is
      not newer than it. */
  function Insert(x: Signal, s: seq<Signal>): (r: seq<Signal>)
    requires NewestFirst(s)
    ensures NewestFirst(r)
    ensures multiset(r) == multiset(s) + multiset{x}
    ensures |r| == |s| + 1
    ensures r[0] == x || (|s| > 0 && r[0] == s[0])
  {
    if |s| == 0 then [x]
    else if x.createdAt >= s[0].createdAt then [x] + s
    else
      var rest := Insert(x, s[1..]);
      assert s == [s[0]] + s[1..];
      assert s[0].createdAt >= rest[0].createdAt;
      [s[0]] + rest
  }

  /** An ordering of rows newest first (the database leaves the order
      of equal timestamps open; any such order satisfies the contract). */
  function SortNewestFirst(s: seq<Signal>): (r: seq<Signal>)
    ensures NewestFirst(r)
    ensures multiset(r) == multiset(s)
  {
    if |s| == 0 then []
    else
      assert s == [s[0]] + s[1..];
      Insert(s[0], SortNewestFirst(s[1..]))
  }

  /** `WHERE is_approved = TRUE`, order preserved. */
  function ApprovedRows(rows: seq<Signal>): (r: seq<Signal>)
    ensures forall x :: x in r <==> x in rows && x.isApproved
    ensures forall x :: multiset(r)[x] == if x.isApproved then multiset(rows)[x] else 0
  {
    if |rows| == 0 then []
    else
      assert rows == [rows[0]] + rows[1..];
      if rows[0].isApproved then [rows[0]] + ApprovedRows(rows[1..]) else ApprovedRows(rows[1..])
  }

  /** `getAllSignals`: an admin sees every row, anyone else only approved
      rows, newest first. The caller's subscription is not consulted. */
  function ListFor(t: SignalTable, role: Field): (r: Reply)
    ensures r.status == Ok && r.body.SignalList?
    ensures NewestFirst(r.body.signals)
    ensures role == Some("admin") ==> multiset(r.body.signals) == multiset(t.rows)
    ensures role != Some("admin") ==> multiset(r.body.signals) == multiset(ApprovedRows(t.rows))
    ensures role != Some("admin") ==> forall x :: x in r.body.signals <==> x in t.rows && x.isApproved
  {
    var visible := if role == Some("admin") then t.rows else ApprovedRows(t.rows);
    var listed := SortNewestFirst(visible);
    assert forall x :: x in listed <==> x in visible by {
      forall x ensures x in listed <==> x in visible {
        assert x in listed <==> x in multiset(listed);
        assert x in visible <==> x in multiset(visible);
      }
    }
    Reply(Ok, SignalList(listed))
  }

  /** `updateSignal` as written: the checks read `entry_price` and `pair`
      before the `const` declarations that bind them, so every call throws
      into the catch and answers 500 without touching the table. */
  function UpdateAsWritten(t: SignalTable, id: Field, pair: Field, direction: Field, entry: Field,
                           stop: Field, take: Field, notes: Field): (r: Outcome)
    ensures r.reply == Reply(ServerError, Error(UseBeforeDeclarationError))
    ensures r.table == t
  {
    Outcome(Reply(ServerError, Error(UseBeforeDeclarationError)), t)
  }

  /** The edit an update applies to a named row: every editable column,
      never the id, the approval flag, the timestamp or the author. */
  function Edited(row: Signal, pair: Field, direction: Field, entry: Field, stop: Field, take: Field, notes: Field): Signal {
    row.(pair := pair, direction := direction, entryPrice := entry, stopLoss := stop, takeProfit := take, notes := notes)
  }

  function EditRows(rows: seq<Signal>, id: Field, pair: Field, direction: Field, entry: Field,
                    stop: Field, take: Field, notes: Field): (r: seq<Signal>)
    ensures |r| == |rows|
    ensures forall i :: 0 <= i < |rows| ==>
              r[i] == if Names(id, rows[i].id) then Edited(rows[i], pair, direction, entry, stop, take, notes) else rows[i]
  {
    if |rows| == 0 then []
    else
      [if Names(id, rows[0].id) then Edited(rows[0], pair, direction, entry, stop, take, notes) else rows[0]]
      + EditRows(rows[1..], id, pair, direction, entry, stop, take, notes)
  }

  /** `updateSignal` with its declarations moved above the checks, as
      evidently intended: create's validation, then 404 when no row has the
      id, otherwise the editable columns of that row are overwritten. */
  function Update(t: SignalTable, id: Field, pair: Field, direction: Field, entry: Field,
                  stop: Field, take: Field, notes: Field, isNaN: Field -> bool): (r: Outcome)
    ensures Validate(pair, entry, stop, isNaN).Some? ==> r == Outcome(Validate(pair, entry, stop, isNaN).value, t)
    ensures r.reply.status == NotFound <==> Validate(pair, entry, stop, isNaN).None? && !AnyNamed(t.rows, id)
    ensures r.reply.status == Ok <==> Validate(pair, entry, stop, isNaN).None? && AnyNamed(t.rows, id)
    ensures r.reply.status != Ok ==> r.table == t
    ensures r.table.nextId == t.nextId && |r.table.rows| == |t.rows|
    ensures forall i :: 0 <= i < |t.rows| ==>
              && r.table.rows[i].id == t.rows[i].id
              && r.table.rows[i].isApproved == t.rows[i].isApproved
              && r.table.rows[i].createdAt == t.rows[i].createdAt
              && r.table.rows[i].createdBy == t.rows[i].createdBy
              && (!Names(id, t.rows[i].id) ==> r.table.rows[i] == t.rows[i])
    ensures r.reply.status == Ok ==> forall i :: 0 <= i < |t.rows| && Names(id, t.rows[i].id) ==>
              r.table.rows[i] == Edited(t.rows[i], pair, direction, entry, stop, take, notes)
  {
    match Validate(pair, entry, stop, isNaN)
    case Some(reply) => Outcome(reply, t)
    case None =>
      if !AnyNamed(t.rows, id) then Outcome(Reply(NotFound, Message("Signal not found")), t)
      else
        Outcome(Reply(Ok, Success("Signal updated successfully!")),
                t.(rows := EditRows(t.rows, id, pair, direction, entry, stop, take, notes)))
  }

  /** `DELETE FROM signals WHERE id = ?`, order preserved. */
  function WithoutNamed(rows: seq<Signal>, id: Field): (r: seq<Signal>)
    ensures forall x :: x in r <==> x in rows && !Names(id, x.id)
    ensures forall i :: 0 <= i < |r| ==> !Names(id, r[i].id)
    ensures forall x :: multiset(r)[x] == if Names(id, x.id) then 0 else multiset(rows)[x]
    ensures !AnyNamed(rows, id) ==> r == rows
  {
    if |rows| == 0 then []
    else
      assert rows == [rows[0]] + rows[1..];
      if Names(id, rows[0].id) then WithoutNamed(rows[1..], id) else [rows[0]] + WithoutNamed(rows[1..], id)
  }

  /** `deleteSignal`: removes the row with that id, keeps every other row,
      and answers success whether or not such a row existed. */
  function Delete(t: SignalTable, id: Field): (r: Outcome)
    ensures r.reply == Reply(Ok, Message("Signal deleted."))
    ensures r.table.nextId == t.nextId
    ensures forall x :: x in r.table.rows <==> x in t.rows && !Names(id, x.id)
    ensures forall x :: multiset(r.table.rows)[x] == if Names(id, x.id) then 0 else multiset(t.rows)[x]
    ensures !AnyNamed(t.rows, id) ==> r.table == t
  {
    Outcome(Reply(Ok, Message("Signal deleted.")), t.(rows := WithoutNamed(t.rows, id)))
  }

  /** The approval lifecycle: a newly created signal is listed for an admin
      but hidden from everyone else until it is approved, after which it is
      listed for everyone. */
  lemma {:induction false} CreatedSignalHiddenUntilApproved(t: SignalTable, pair: Field, direction: Field, entry: Field,
                                                            stop: Field, take: Field, now: int, isNaN: Field -> bool, role: Field)
    requires Create(t, pair, direction, entry, stop, take, now, isNaN).reply.status == CreatedStatus
    requires role != Some("admin")
    ensures var t1 := Create(t, pair, direction, entry, stop, take, now, isNaN).table;
            var row := t1.rows[|t.rows|];
            && row in ListFor(t1, Some("admin")).body.signals
            && row !in ListFor(t1, role).body.signals
            && var t2 := Approve(t1, Some(Text.NatToString(row.id))).table;
               row.(isApproved := true) in ListFor(t2, role).body.signals
  {
    var t1 := Create(t, pair, direction, entry, stop, take, now, isNaN).table;
    var row := t1.rows[|t.rows|];
    assert row in t1.rows;
    var admin := ListFor(t1, Some("admin")).body.signals;
    assert row in multiset(admin);
    var id := Some(Text.NatToString(row.id));
    assert AnyNamed(t1.rows, id);
    var t2 := Approve(t1, id).table;
    assert t2.rows[|t.rows|] == row.(isApproved := true);
  }

  /** Approving twice is approving once. */
  lemma ApproveIdempotent(t: SignalTable, id: Field)
    ensures Approve(Approve(t, id).table, id) == Approve(t, id)
  {
    var once := Approve(t, id);
    var twice := Approve(once.table, id);
    if Truthy(id) && AnyNamed(t.rows, id) {
      var i :| 0 <= i < |t.rows| && Names(id, t.rows[i].id);
      assert Names(id, once.table.rows[i].id);
      assert twice.table.rows == once.table.rows;
    }
  }

  /** Deleting twice is deleting once, and afterwards no listing, for any
      role, contains a row with that id. */
  lemma DeleteIdempotentAndFinal(t: SignalTable, id: Field, role: Field)
    ensures var once := Delete(t, id);
            && Delete(once.table, id) == once
            && forall x :: x in ListFor(once.table, role).body.signals ==> !Names(id, x.id)
  {
    var once := Delete(t, id);
    assert !AnyNamed(once.table.rows, id);
    var listed := ListFor(once.table, role).body.signals;
    forall x | x in listed ensures !Names(id, x.id) {
      if role == Some("admin") {
        assert x in multiset(once.table.rows);
      }
    }
  }

  /** Every handler keeps the auto-increment counter above all ids. */
  lemma HandlersKeepIdsFresh(t: SignalTable, id: Field, pair: Field, direction: Field, entry: Field,
                             stop: Field, take: Field, notes: Field, now: int, isNaN: Field -> bool)
    requires FreshSignalIds(t)
    ensures FreshSignalIds(Create(t, pair, direction, entry, stop, take, now, isNaN).table)
    ensures FreshSignalIds(Approve(t, id).table)
    ensures FreshSignalIds(Update(t, id, pair, direction, entry, stop, take, notes, isNaN).table)
    ensures FreshSignalIds(Delete(t, id).table)
  {
    assert FreshSignalIds(Create(t, pair, direction, entry, stop, take, now, isNaN).table);
    assert FreshSignalIds(Approve(t, id).table);
    assert FreshSignalIds(Update(t, id, pair, direction, entry, stop, take, notes, isNaN).table);
    DeleteKeepsIdsFresh(t, id);
  }

  /** Deleting keeps every remaining id below the counter. */
  lemma DeleteKeepsIdsFresh(t: SignalTable, id: Field)
    requires FreshSignalIds(t)
    ensures FreshSignalIds(Delete(t, id).table)
  {
    var d := Delete(t, id).table;
    forall i | 0 <= i < |d.rows| ensures d.rows[i].id < d.nextId {
      assert d.rows[i] in t.rows;
    }
  }

  /** The use-before-declaration fault made concrete: a well-formed edit of
      an existing signal is refused by the handler as written and applied by
      the intended one. */
  lemma UpdateUseBeforeDeclaration(isNaN: Field -> bool)
    requires !isNaN(Some("100")) && !isNaN(Some("90"))
    ensures var row := Signal(1, Some("BTC/USD"), Some("BUY"), None, Some("95"), Some("85"), Some("120"), Some(Disclaimer), true, 0, None);
            var t := SignalTable([row], 2);
            var args := (Some("1"), Some("ETH/USD"), Some("SELL"), Some("100"), Some("90"), Some("80"), Some("revised"));
            && UpdateAsWritten(t, args.0, args.1, args.2, args.3, args.4, args.5, args.6).reply.status == ServerError
            && var r := Update(t, args.0, args.1, args.2, args.3, args.4, args.5, args.6, isNaN);
               && r.reply.status == Ok
               && r.table.rows == [Edited(row, args.1, args.2, args.3, args.4, args.5, args.6)]
  {
    var row := Signal(1, Some("BTC/USD"), Some("BUY"), None, Some("95"), Some("85"), Some("120"), Some(Disclaimer), true, 0, None);
    assert Text.NatToString(1) == "1";
    assert Names(Some("1"), row.id);
    var t := SignalTable([row], 2);
    assert t.rows[0] == row;
    assert AnyNamed(t.rows, Some("1"));
  }
}

=== FILE: text.dfy ===
/** Character and string helpers: decimal rendering of numbers, searching for
    a character, prefixes. Strings are sequences of `char`; the JavaScript
    source measures strings in UTF-16 code units, which the model identifies
    with characters. */
module Text {

  predicate IsDigit(c: char) {
    '0' <= c <= '9'
  }

  predicate AllDigits(s: string) {
    forall i :: 0 <= i < |s| ==> IsDigit(s[i])
  }

  function DigitChar(d: nat): (c: char)
    requires d < 10
    ensures IsDigit(c)
    ensures c as int - '0' as int == d
  {
    "0123456789"[d]
  }

  function DigitValue(c: char): (d: nat)
    requires IsDigit(c)
    ensures d < 10
  {
    c as int - '0' as int
  }

  /** The decimal form of `n`, without leading zeros: JavaScript's
      `String(n)` / `toString()` for a non-negative integer. */
  function NatToString(n: nat): (s: string)
    ensures 1 <= |s|
    ensures AllDigits(s)
    ensures |s| > 1 ==> s[0] != '0'
  {
    if n < 10 then [DigitChar(n)] else NatToString(n / 10) + [DigitChar(n % 10)]
  }

  /** The number a string of decimal digits denotes. */
  function ParseDigits(s: string): nat
    requires AllDigits(s)
  {
    if |s| == 0 then 0 else ParseDigits(s[..|s| - 1]) * 10 + DigitValue(s[|s| - 1])
  }

  /** `ParseDigits` inverts `NatToString`. */
  lemma {:induction false} ParseNatToString(n: nat)
    ensures ParseDigits(NatToString(n)) == n
  {
    if n >= 10 {
      var s := NatToString(n);
      assert s[..|s| - 1] == NatToString(n / 10);
      ParseNatToString(n / 10);
    }
  }

  /** Rendering is injective: two numbers with the same decimal form are equal. */
  lemma NatToStringInjective(m: nat, n: nat)
    requires NatToString(m) == NatToString(n)
    ensures m == n
  {
    ParseNatToString(m);
    ParseNatToString(n);
  }

  function Pow10(k: nat): (p: nat)
    ensures p >= 1
  {
    if k == 0 then 1 else 10 * Pow10(k - 1)
  }

  /** A number with k+1 digits renders to exactly k+1 characters. */
  lemma {:induction false} NatToStringLength(n: nat, k: nat)
    requires Pow10(k) <= n < Pow10(k + 1)
    ensures |NatToString(n)| == k + 1
  {
    if k > 0 {
      assert Pow10(k) == 10 * Pow10(k - 1);
      assert Pow10(k + 1) == 10 * Pow10(k);
      assert Pow10(k - 1) <= n / 10 < Pow10(k);
      NatToStringLength(n / 10, k - 1);
    }
  }

  /** JavaScript's template rendering of an integer: a leading '-' for negatives. */
  function IntToString(i: int): (s: string)
    ensures 1 <= |s|
    ensures i < 0 <==> s[0] == '-'
  {
    if i < 0 then "-" + NatToString(-i) else NatToString(i)
  }

  /** The position of the first `c` in `s`, or `|s|` when there is none. */
  function IndexOf(s: string, c: char): (i: nat)
    ensures i <= |s|
    ensures c !in s[..i]
    ensures i < |s| ==> s[i] == c
  {
    if |s| == 0 then 0
    else if s[0] == c then 0
    else
      var j := IndexOf(s[1..], c);
      assert s[1..][..j] == s[1..j + 1];
      1 + j
  }

  /** JavaScript's `s.substring(0, n)`: at most the first n characters. */
  function Take(s: string, n: nat): (r: string)
    ensures |r| <= n
    ensures r <= s
    ensures |s| <= n ==> r == s
    ensures |s| > n ==> |r| == n
  {
    if |s| <= n then s else s[..n]
  }

  predicate StartsWith(s: string, prefix: string) {
    prefix <= s
  }

  predicate EndsWith(s: string, suffix: string) {
    |suffix| <= |s| && s[|s| - |suffix|..] == suffix
  }

  /** `IndexOf` finds the first occurrence. */
  lemma IndexOfFirst(s: string, c: char, k: nat)
    requires k < |s| && s[k] == c && c !in s[..k]
    ensures IndexOf(s, c) == k
  {
  }

  lemma IndexOfAbsent(s: string, c: char)
    requires c !in s
    ensures IndexOf(s, c) == |s|
  {
  }
}

=== FILE: wrappers.dfy ===
/** The optional-value type used across the model: a database lookup that
    finds no row, an absent request field, a header that is not there. */
module Wrappers {

  datatype Option<+T> = None | Some(value: T) {

    /** Returns the encapsulated value, or `default` when there is none. */
    function GetOr(default: T): (r: T)
      ensures Some? ==> r == value
      ensures None? ==> r == default
    {
      match this
      case Some(v) => v
      case None => default
    }
  }
}
